=== FILE: README.md ===
# go-itergen in Dafny

go-itergen generates a Go source file with an iterator type for a given Go
element type: `Map`, `Filter`, `All`, `Some`, `ForEach`, `Concat`, `Find`,
`Reverse`, `Splice`, `Reduce` and, for channel types, `Array`. This project
models the engine behind it and the code it emits.

- **Type tokens** (`typedef.dfy`, module `TypeParsing`). A token `[package:]type`
  is split at `:`. A type text containing `<-` is refused. The last
  space-separated word is the element type. The text is a channel when it
  starts with `chan`. The name is the title-cased type text with a leading
  `*` dropped, and for a qualified type the package word and the type word
  are joined (`*os.File` gives `OsFile`).
- **File names** (`fileify.dfy`, module `FileNames`). `fileify` keeps the
  ASCII letters and digits of a type text and lower-cases them.
- **The generator** (`generator.dfy`, module `Generator`). The `Generator`
  class holds the options and the type definitions that `parseTypes` stores
  in place. It has these parts:
  - `parseTypes` stops at the first token that does not parse.
  - The import list is the set of collected packages, sorted.
  - `generateCode` runs fifteen section steps into one buffer and stops at
    the first error. A step fails when a function is asked for that the kind
    of type does not support.
  - `fileName` gives `<stem>_iter.go`, or `<stem>chan_iter.go` for a channel.
  - `Generate` chains parsing, generation, formatting and naming.
- **The older generator** (`legacy.dfy`, module `LegacyGenerator`). This is
  the snapshot in `generator/generator.go`. Its parsing never fails. It
  lists imports in the order met, duplicates included. Its `All` and `Some`
  steps write nothing. It has no channel file name. Lemmas relate it to the
  current engine.
- **The emitted iterator** (`plain_iter.dfy`, module `PlainIter`). These are
  the operations of `examples/float64_iter.go`, over any element type.
  `Filter`, `Reverse` and `ReduceInt` are loops proved against reference
  functions. `Splice` has no loop; it is proved against a reference function
  that does Go's 64-bit `int` addition with wrap-around. `Map`, `Iter`,
  `ToInt`, `All`, `Some`, `Find` and `Concat` state their result outright.
- **Shared support.**
  - `text.dfy` has the Go `strings` functions the core uses: `Split`,
    `Contains`, `HasPrefix`, `Title` and `ToLower`.
  - `order.dfy` has byte-wise string order and `sort.Strings`.
  - `pipeline.dfy` has the fail-fast concatenation of step outputs shared by
    both generators.
  - `results.dfy` has `Option` and `Result`.

Effects are parameters:
- template lookup and execution are `render`, which yields text or an error;
- `go/format.Source` is `format`;
- `Generate` returns the path and code that the source writes to disk.

Behaviour worth knowing (the model follows the code):

- **Channel test.** Channel-ness is a prefix test on the type text
  (generator.go:418), so `channels.Msg` counts as a channel
  (`TypeParsing.ParseChannelsPrefix`).
- **`Splice` at the last index.** The comment on `Splice` says the slice
  comes back unchanged when `start` is past its end. The code also returns
  it unchanged when `start` is the last index (`PlainIter.SplicedOutside`,
  `PlainIter.SplicedAtLast`).
  When `start + numDelete` overflows Go's `int`, the sum wraps to a negative
  number, passes the length test, and the slicing panics
  (`PlainIter.SplicedWrapPanics`). `Spliced` returns `None` for that panic.
- **Reduce packages.** `generateImports` (generator.go:126-146) adds the
  main type's and the map targets' packages only. The packages of the reduce
  accumulators, which `generateReduces` (generator.go:306-326) renders, are
  never imported (`Generator.ImportListContents`).
- **`Title`.** Title-casing follows Go's rule for ASCII: a letter is
  upper-cased when it follows a separator. Non-ASCII characters are left
  unchanged and do not count as separators.

## Model

| member | source | states |
|---|---|---|
| Text.FirstIndex | generator.go:97 | the index is within bounds and, when smaller than the length, holds the character |
| Text.FirstIndexFound | generator.go:97 | the index is below the length exactly when the character occurs, and the character is absent before it |
| Text.Split | generator.go:97 | `strings.Split`: the pieces between separators, at least one; their properties are in the rows below |
| Text.SplitPieces | generator.go:97-103 | `strings.Split` yields two or more pieces exactly when the separator occurs, and no piece contains it |
| Text.SplitThenJoin | generator.go:97 | joining the pieces with the separator gives back the input |
| Text.JoinThenSplit | generator.go:97 | splitting a join of separator-free pieces gives back the pieces |
| Text.SplitHead | generator.go:101 | the first piece is the text before the first separator, or the whole text |
| Text.SplitLast | generator.go:418 | the last piece is a separator-free suffix that follows a separator or is the whole text |
| Text.SplitFirstTwoOf | generator.go:100-102 | with a separator present, the first two pieces are separator-free and the input starts with them joined by the separator |
| Text.Title | generator.go:117 | `strings.Title` keeps the length; its per-character rule is `Text.TitleAt` |
| Text.TitleAt | generator.go:117 | under `strings.Title`, a character is upper-cased when it starts the text or follows a word separator, and is kept otherwise |
| Text.ToLower | generator/file.go:13 | `strings.ToLower` keeps the length; its per-character rule is `Text.ToLowerAt` |
| Text.ToLowerAt | generator/file.go:13 | `strings.ToLower` lower-cases each ASCII letter in place and keeps every other character |
| Text.ContainsAt | generator.go:414 | `strings.Contains` holds exactly when the substring occurs at some index |
| TypeParsing.Qualifier | generator.go:88-105 | without `:` the package is empty and the type is the whole token; otherwise both are `:`-free and the token starts with `package:type` |
| TypeParsing.QualifierOf | generator.go:96-103 | `pkg:typ`, optionally followed by more `:` fields, splits into exactly `pkg` and `typ` |
| TypeParsing.ParseChanType | generator.go:413-420 | refused exactly when `<-` occurs, with the message `invalid channel type given: <text>`; otherwise the element is the last space-separated word and the channel flag is the `chan` prefix |
| TypeParsing.Unpointer | generator.go:108-110 | the result is the text, or the text without one leading `*`, and the `*` is removed exactly when the text starts with it |
| TypeParsing.TypeName | generator.go:107-118 | `getTypeName`; what it yields is stated by the `TypeName…` lemmas |
| TypeParsing.TypeNameUnqualified | generator.go:107-118 | an unqualified, non-pointer type is named by its title-cased text |
| TypeParsing.TypeNameQualified | generator.go:112-115 | a qualified type is named by the title-cased package word and type word, joined |
| TypeParsing.TypeNamePointer | generator.go:108-110 | a leading `*` does not change the name |
| TypeParsing.TypeNameWord | generator.go:107-118 | a single word of letters and digits is named by itself with its first letter upper-cased |
| TypeParsing.TypeNameDotted | generator.go:107-118 | `a.b` and `*a.b` for words `a` and `b` are named by both words capitalised and joined |
| TypeParsing.ParseType | generator.go:76-86 | `parseType`; its fields are stated by `TypeParsing.ParseTypeFields` |
| TypeParsing.ParseTypeFields | generator.go:76-86 | a token is refused exactly when its type text holds `<-`; an accepted one carries the package, the last word, the name derived from it and the `chan` prefix flag |
| TypeParsing.ParseTypeUnqualified | generator.go:76-105 | a one-word token without `:` parses to its own text, empty package and derived name |
| TypeParsing.ParseTypeQualified | generator.go:96-103 | `pkg:typ` parses to package `pkg` and type `typ` |
| TypeParsing.ParseTypeChan | generator.go:413-420 | `chan elem` parses to element `elem` with the channel flag set |
| TypeParsing.ParseTypeRejectsDirection | generator.go:414-416 | a directional channel type is refused with the channel-type message, qualified or not |
| TypeParsing.ParseOsFile | generator/generator_test.go:22 | `os:*os.File` parses to name `OsFile`, package `os`, type `*os.File` |
| TypeParsing.ParseGeneratorGenerator | generator/generator_test.go:21 | the qualified generator token gives name `GeneratorGenerator` |
| TypeParsing.ParseInt64 | generator/generator_test.go:20 | `int64` parses to name `Int64` with no package |
| TypeParsing.ParseChanFloat64 | generator.go:413-420 | `chan float64` parses to element `float64`, name `Float64`, channel |
| TypeParsing.ParseSendOnly | generator.go:414-416 | `chan<- int` is refused with `invalid channel type given: chan<- int` |
| TypeParsing.ParseChannelsPrefix | generator.go:418 | `channels.Msg` counts as a channel, because the test is a prefix test |
| FileNames.KeepAlnum | generator/file.go:13 | the regular-expression replacement of `[^a-zA-Z0-9]`; its properties are stated through `Fileify` |
| FileNames.Fileify | generator/file.go:12-14 | `fileify`; its properties are in the rows below |
| FileNames.FileifyLowerAlnum | generator/file.go:10-14 | every character of the stem is a lower-case ASCII letter or a digit, and the stem is no longer than the input |
| FileNames.FileifyAppend | generator/file.go:10-14 | `fileify` distributes over concatenation |
| FileNames.FileifyChar | generator/file.go:10-14 | one character maps to its lower-case self when it is an ASCII letter or digit, else to nothing |
| FileNames.FileifyFixpoint | generator/file.go:10-14 | `fileify` leaves a string unchanged exactly when it is already lower-case letters and digits |
| FileNames.FileifyIdempotent | generator/file.go:10-14 | applying `fileify` twice is applying it once |
| FileNames.FileifyKeepsInt64 | file_test.go:22 | `int64` stays `int64` |
| FileNames.FileifyDropsBraces | file_test.go:23 | `interface{}` becomes `interface` |
| FileNames.FileifyPointerToQualified | file_test.go:24 | `*os.File` becomes `osfile` |
| FileNames.FileifyKeepsFloat64 | generator.go:383-391 | `float64` stays `float64`, the stem of the channel file name |
| StringOrder.LessTotal | generator.go:155 | the byte-wise order compares any two distinct strings |
| StringOrder.LessTransitive | generator.go:155 | the byte-wise order is transitive |
| StringOrder.Sort | generator.go:155 | `sort.Strings` as an insertion sort; its result is stated by `StringOrder.SortStrict` |
| StringOrder.SortStrict | generator.go:155 | `sort.Strings` on distinct strings yields a strictly ascending permutation |
| StringOrder.StrictlySortedUnique | generator.go:155 | two strictly ascending lists with the same elements are equal, so the sorted import list does not depend on map order |
| StringOrder.SortedElems | generator.go:150-155 | the listing of a set is strictly ascending and holds exactly the set |
| Pipeline.RunAll | generator.go:366-373 | the fail-fast loop over the steps into one buffer; its behaviour is stated by the rows below |
| Pipeline.RunAllAppend | generator.go:366-373 | running two step lists in turn is running their concatenation |
| Pipeline.RunAllOk | generator.go:366-373 | the run succeeds exactly when every step succeeds |
| Pipeline.FirstErrorWins | generator.go:366-373 | the error of the first failing step is the result |
| Pipeline.RunAllFirst | generator.go:366-373 | a successful run's buffer begins with the first step's text |
| Pipeline.RunAllSticky | generator.go:368-371 | once a prefix fails, later steps do not change the result |
| Pipeline.RunAllCongruent | generator/generator.go:152-160 | steps producing the same outputs give the same run |
| Generator.ImportSet | generator.go:126-146 | the packages `generateImports` collects into its map; membership is stated by `Generator.ImportSetMembers` |
| Generator.ImportList | generator.go:126-157 | the sorted import list; its contents are stated by `Generator.ImportListContents` |
| Generator.ImportSetMembers | generator.go:126-146 | the collected set holds `errors`, the non-empty type and map-target packages, and `sync` for a channel with `Concat`, and nothing else |
| Generator.ImportListContents | generator.go:126-157 | the rendered import list is strictly ascending and has exactly those members; reduce packages are not imported |
| Generator.ImportsFixture | generator/fixtures_test.go:15-20 | `os` with map targets `foo` and `github.com/foo/bar` lists `errors`, `foo`, `github.com/foo/bar`, `os` |
| Generator.CollectPackages | generator.go:127-146 | the loop gathers exactly the collected set |
| Generator.ListSorted | generator.go:148-155 | listing a set in arbitrary order and sorting gives its ascending listing |
| Generator.Emit | generator.go:120-342 | one `generate…` step per section; its cases are stated by `Generator.EmitIdle`, `EmitRequested` and `EmitOk` |
| Generator.EmitIdle | generator.go:197-342 | a section that is not asked for writes nothing and does not fail |
| Generator.EmitRequested | generator.go:159-342 | a requested section the kind of type does not support fails; any other requested section except the package clause is its template's output |
| Generator.EmitOk | generator.go:159-342 | with working templates a section fails exactly when it is requested and unsupported |
| Generator.FirstViolation | generator.go:167-342 | a broken capability rule names a requested, unsupported section |
| Generator.CapabilitiesHoldSections | generator.go:167-342 | under the capability rules every requested section is supported |
| Generator.Code | generator.go:348-376 | `generateCode` as the fail-fast run of the sections; its outcomes are stated by the rows below |
| Generator.CodeSucceedsIffCapable | generator.go:348-376 | with working templates generation succeeds exactly when no channel asks for All, Some, Find, Reverse or Splice and no plain type asks for Array |
| Generator.CapabilityViolationFails | generator.go:348-376 | a broken capability rule makes generation fail whatever the templates |
| Generator.ChanAllBeforeSome | generator.go:182-195 | a channel asking for both All and Some fails with `chan type does not support all`, since that step runs first |
| Generator.CodeMinimal | generator.go:348-376 | with no optional section asked for, the output is the package clause, the imports and the type |
| Generator.CodeStartsWithPackage | generator.go:120-124 | generated code starts with `package <name>` and a blank line |
| Generator.ParseAllOk | generator.go:55-71 | a token loop finishes without error exactly when every token parses |
| Generator.ParseAllValues | generator.go:55-71 | without error the stored results are the tokens' parses, in order |
| Generator.ParseAllError | generator.go:55-71 | with an error it is the first failing token's, and the stored results are the parses before it |
| Generator.ParseAllAppend | generator.go:55-71 | parsing two token lists in turn is parsing their concatenation |
| Generator.ParseTypesSpec | generator.go:48-74 | `parseTypes` on values; its outcomes are stated by `ParseTypesFirstError` and `ParseTypesSuccess` |
| Generator.ParseTypesFirstError | generator.go:48-74 | `parseTypes` reports the error of the first failing token among type, maps and reduces |
| Generator.ParseTypesSuccess | generator.go:48-74 | on success from a fresh generator the type, map targets and reduce accumulators are the parses of their tokens |
| Generator.ParseEach | generator.go:55-62 | a token loop returns the parses before the first error and that error |
| Generator.FileName | generator.go:378-391 | the name ends with `_iter.go`, and with `chan_iter.go` for a channel |
| Generator.FileNameParts | generator.go:383-391 | the name is the `fileify` stem followed by the suffix for the kind of type |
| Generator.FileNameStem | generator.go:383-391 | cutting the suffix gives back the `fileify` stem |
| Generator.FileNameLower | generator.go:383-391 | everything before `_iter.go` is lower-case letters and digits |
| Generator.FileNameOsFile | generator/generator_test.go:38 | `*os.File` gives `osfile_iter.go` |
| Generator.FileNameInt64 | generator/generator_test.go:39 | `int64` gives `int64_iter.go` |
| Generator.FileNameChan | generator.go:378-391 | a `float64` channel gives `float64chan_iter.go` |
| Generator.GenerateSpec | generator.go:394-411 | `Generate` on values; its outcomes are stated by the three rows below |
| Generator.GenerateParseErrorFirst | generator.go:395-398 | a parse error is returned whatever the templates and formatter |
| Generator.GenerateCodeErrorFirst | generator.go:400-403 | a generation error is returned whatever the formatter |
| Generator.GenerateSuccess | generator.go:394-411 | a successful run yields the formatted generated code under the file name of the parsed type |
| Generator.Generator.constructor | generator.go:18-36 | a fresh generator holds the options and no parsed types |
| Generator.Generator.ParseTypes | generator.go:48-74 | the stored types and the error are those of `parseTypes` appending to what was stored before |
| Generator.Generator.Imports | generator.go:126-157 | the import list is the ascending listing of the collected set |
| Generator.Generator.GenerateCode | generator.go:348-376 | the loop's result is the fail-fast concatenation of the section steps |
| Generator.Generator.FileNameOf | generator.go:383-391 | the method returns the file name of the stored type |
| Generator.Generator.Generate | generator.go:394-411 | the new state and result are those of parsing, generating, formatting and naming |
| LegacyGenerator.ParseType | generator/generator.go:42-64 | without `:` the type is the whole token; otherwise package and type are `:`-free, the token starts with `package:type`, and the type runs to the end or to the next `:`, exactly as the current version splits; the name is derived as in the current version |
| LegacyGenerator.ParseTypeAgrees | generator/generator.go:42-77 | wherever the current version accepts a one-word type text, both versions give the same name, package and type |
| LegacyGenerator.ParseTypeKeepsDirection | generator/generator.go:49-64 | `chan<- int` is kept as written, while the current version refuses it |
| LegacyGenerator.ParseOsFile | generator/generator_test.go:22 | `os:*os.File` parses to `OsFile`, `os`, `*os.File` |
| LegacyGenerator.ParseGeneratorGenerator | generator/generator_test.go:21 | the qualified generator token gives `GeneratorGenerator` |
| LegacyGenerator.ParseInt64 | generator/generator_test.go:20 | `int64` gives `Int64` with no package |
| LegacyGenerator.ParseAll | generator/generator.go:37-39 | every map token is parsed, in order |
| LegacyGenerator.MapPackageList | generator/generator.go:91-95 | the map targets' non-empty packages, never more entries than targets; order and repeats are stated by the two rows below |
| LegacyGenerator.MapPackageListSingle | generator/generator.go:91-95 | one map target contributes its package when it has one, and nothing otherwise |
| LegacyGenerator.MapPackageListAppend | generator/generator.go:91-95 | the list for two runs of map targets is their lists one after the other, so packages come in the order met and repeats are kept |
| LegacyGenerator.MapPackageListHas | generator/generator.go:91-95 | every map target with a non-empty package has that package on the list |
| LegacyGenerator.MapPackageListFrom | generator/generator.go:91-95 | every listed package is the non-empty package of some map target |
| LegacyGenerator.MapPackageListElems | generator/generator.go:91-95 | a package is listed exactly when it is a non-empty map-target package |
| LegacyGenerator.ImportList | generator/generator.go:85-98 | the list starts with `errors` |
| LegacyGenerator.ImportsAsCurrent | generator/generator.go:85-98 | the imports hold the same packages as the current version's for a non-channel run |
| LegacyGenerator.ImportsKeepRepeats | generator/generator.go:85-98 | on one input a package shared by the type and a map target is listed twice |
| LegacyGenerator.ImportsInOrder | generator/generator.go:85-98 | for any map targets, more targets only append their packages at the end of the import list |
| LegacyGenerator.ImportsUnsorted | generator/generator.go:85-98 | on one input the imports come in the order met, not sorted |
| LegacyGenerator.CollectImports | generator/generator.go:85-97 | the loop builds the import list |
| LegacyGenerator.Emit | generator/generator.go:79-140 | one `generate…` step per section; its cases are stated by `LegacyGenerator.EmitSteps` |
| LegacyGenerator.EmitSteps | generator/generator.go:79-140 | a step that does not write yields nothing and does not fail; any other step except the package clause is its template's output |
| LegacyGenerator.Code | generator/generator.go:142-163 | `generateCode` as the fail-fast run of the eight steps |
| LegacyGenerator.CodeTotal | generator/generator.go:142-163 | with working templates generation always succeeds, since there are no capability checks |
| LegacyGenerator.AllSomeIgnored | generator/generator.go:104-110 | the All and Some options do not affect the output |
| LegacyGenerator.CodeStartsWithPackage | generator/generator.go:79-83 | generated code starts with the package clause |
| LegacyGenerator.FileName | generator/generator.go:165-168 | the name ends with `_iter.go` |
| LegacyGenerator.FileNameAsCurrent | generator/generator.go:165-168 | the name equals the current version's for the same type text as a non-channel |
| LegacyGenerator.FileNameOsFile | generator/generator_test.go:38 | `*os.File` gives `osfile_iter.go` |
| LegacyGenerator.FileNameInt64 | generator/generator_test.go:39 | `int64` gives `int64_iter.go` |
| LegacyGenerator.GenerateSpec | generator/generator.go:171-185 | `Generate` on values; its outcome is stated by `LegacyGenerator.GenerateTotal` |
| LegacyGenerator.GenerateTotal | generator/generator.go:170-185 | with working templates and formatter a run always yields a file named after the main token |
| LegacyGenerator.Generator.constructor | generator/generator.go:13-23 | a fresh generator holds the options and no parsed types |
| LegacyGenerator.Generator.ParseTypes | generator/generator.go:34-40 | the type is the parse of the main token, and the map results gain the parses of the map tokens |
| LegacyGenerator.Generator.GenerateCode | generator/generator.go:142-163 | the loop's result is the fail-fast concatenation of the eight steps |
| LegacyGenerator.Generator.Generate | generator/generator.go:170-185 | the new state and result are those of parsing, generating, formatting and naming |
| PlainIter.Map | examples/float64_iter.go:15-21 | the result has one entry per element: the callback applied to the position and the element |
| PlainIter.Iter | examples/float64_iter.go:23-34 | converts back exactly when every entry is an element, then gives those elements in order; otherwise `ErrFloat64ToFloat64` |
| PlainIter.ToInt | examples/float64_iter.go:36-47 | converts exactly when every entry is an int, then gives them in order; otherwise `ErrFloat64ToInt` |
| PlainIter.Filtered | examples/float64_iter.go:49-57 | the reference filter; its properties are in the rows below |
| PlainIter.Filter | examples/float64_iter.go:49-57 | the loop's result is the reference filter |
| PlainIter.FilteredCount | examples/float64_iter.go:49-57 | each satisfying value keeps its number of occurrences and every other value disappears |
| PlainIter.FilteredEvery | examples/float64_iter.go:49-57 | every kept element satisfies the predicate |
| PlainIter.FilteredAppend | examples/float64_iter.go:49-57 | filtering distributes over concatenation, so order is kept |
| PlainIter.FilteredEmpty | examples/float64_iter.go:49-57 | the result is empty exactly when no element satisfies the predicate |
| PlainIter.FilteredIdempotent | examples/float64_iter.go:49-57 | filtering twice is filtering once |
| PlainIter.FilteredExample | examples/float64_iter_test.go:36-43 | of four elements the two satisfying ones are kept, in order |
| PlainIter.All | examples/float64_iter.go:59-66 | true exactly when every element satisfies the predicate |
| PlainIter.Some | examples/float64_iter.go:68-75 | true exactly when some element satisfies the predicate |
| PlainIter.Find | examples/float64_iter.go:87-95 | index -1 with the zero value exactly when nothing matches; otherwise the first matching index and its element |
| PlainIter.FindIsFirstFiltered | examples/float64_iter.go:87-95 | the element `Find` returns is the head of the filtered slice |
| PlainIter.Concat | examples/float64_iter.go:83-85 | the result is the first slice followed by the second |
| PlainIter.Reversed | examples/float64_iter.go:97-103 | the reverse has the same length and position k holds the element counted k from the end |
| PlainIter.Reverse | examples/float64_iter.go:97-103 | the loop's result is the reverse |
| PlainIter.ReversedReversed | examples/float64_iter.go:97-103 | reversing twice gives back the slice |
| PlainIter.ReversedAppend | examples/float64_iter.go:97-103 | reversing a concatenation reverses and swaps the parts |
| PlainIter.AddInt | examples/float64_iter.go:118 | Go's `+` on 64-bit `int`: exact inside the range, negative on overflow, and equal to the true sum modulo 2^64 |
| PlainIter.Spliced | examples/float64_iter.go:110-123 | the reference splice, with `None` for the run-time panic |
| PlainIter.Splice | examples/float64_iter.go:110-123 | the method's result is the reference splice |
| PlainIter.SplicedOutside | examples/float64_iter.go:104-115 | a start below 0, at the last index or past the end returns the whole slice, as the comment on `Splice` promises (and also at the last index) |
| PlainIter.SplicedAtLast | examples/float64_iter.go:113-115 | a start at the last index returns the slice unchanged |
| PlainIter.SplicedRemoves | examples/float64_iter.go:117-120 | an in-range deletion keeps the prefix and shifts the rest left by the count |
| PlainIter.SplicedTruncates | examples/float64_iter.go:117-120 | a negative count, or one that runs past the end without overflowing, keeps only the elements before start |
| PlainIter.SplicedWrapPanics | examples/float64_iter.go:118-119 | a count that makes `start + numDelete` overflow passes the length test, and the slicing panics |
| PlainIter.SplicedWrapExample | examples/float64_iter.go:118-119 | `Splice(1, math.MaxInt)` on three elements panics |
| PlainIter.SplicedExamples | examples/float64_iter_test.go:97-104 | the four splice cases on a three-element slice |
| PlainIter.Fold | examples/float64_iter.go:125-131 | the reference left fold; its properties are in the rows below |
| PlainIter.ReduceInt | examples/float64_iter.go:125-131 | the loop's result is the left fold with element, accumulator and index |
| PlainIter.FoldAppend | examples/float64_iter.go:125-131 | folding a concatenation folds the second part from the first's result, with indices shifted |
| PlainIter.FoldCounts | examples/float64_iter.go:125-131 | a counting callback yields the initial value plus the length |
| PlainIter.FoldSums | examples/float64_iter_test.go:89-95 | a summing callback over three elements yields their sum |

## Left out

- `ForEach` in `examples/float64_iter.go`: it only runs a callback for its side effects, so there is nothing to state beyond the calls. The generator's `generateForEach` step in `generator.go` is modelled as `ForEachSection`.
- Template texts and how they are rendered: `render` is a parameter. The sections' data, the choice of the channel variant and the propagation of errors are modelled.
- `go/format.Source` is the parameter `format`.
- `deleteIfExists` and `write` in `generator/file.go`: file-system effects. `Generate` returns the path and code it would write.
- `filepath.Join(".", file)` in both `fileName` functions is taken as the identity on a plain file name.
- `examples/float64chan_iter.go`, the goroutine-based channel iterator, is not part of this model. Neither are the command-line front ends (`cmd/go-itergen/main.go`, `generator/generator_cmd.go`, `itergen.go`), `examples/sample.go` or the template tables.
- `PlainIter`: Go slice aliasing, the difference between a nil slice and an empty one, and float arithmetic in callbacks are not modelled. Callbacks are pure functions. `interface{}` values are reduced to element, int or other.
- `Text.TitleAt` covers ASCII only: Unicode letter classes in `strings.Title` and `strings.ToLower` are not modelled.
- `Generator.Generator.ParseTypes` appends each batch's parses at once rather than one element per iteration. The final state is the same.
- `Generator.Generator.GenerateCode` returns the buffer as a string, not as bytes.
- `PlainIter.FoldCounts` and `PlainIter.FoldSums`: the callbacks' own `int` arithmetic is unbounded here. In Go, `acc + 1` or a sum wraps around at 64 bits. `ReduceInt` itself does no arithmetic, so it is exact.

=== FILE: fileify.dfy ===
/**
 * `fileify` from generator/file.go: the file-name stem derived from a type
 * spelling, made of its ASCII letters and digits, lower-cased.
 */
module FileNames {
  import opened Text

  predicate IsAsciiAlnum(c: char) {
    IsAsciiLetter(c) || IsDigit(c)
  }

  predicate IsLowerAlnum(c: char) {
    'a' <= c <= 'z' || IsDigit(c)
  }

  /** Replacing every match of `[^a-zA-Z0-9]` with the empty string. */
  function KeepAlnum(s: string): string
    decreases |s|
  {
    if s == [] then []
    else (if IsAsciiAlnum(s[0]) then [s[0]] else []) + KeepAlnum(s[1..])
  }

  /** `fileify`: the regular-expression replacement, then `strings.ToLower`. */
  function Fileify(s: string): string {
    ToLower(KeepAlnum(s))
  }

  /** Only ASCII letters and digits survive the filter, and it never lengthens. */
  lemma {:induction false} KeepAlnumAlnum(s: string)
    ensures forall k :: 0 <= k < |KeepAlnum(s)| ==> IsAsciiAlnum(KeepAlnum(s)[k])
    ensures |KeepAlnum(s)| <= |s|
    decreases |s|
  {
    if s != [] {
      KeepAlnumAlnum(s[1..]);
      var head := if IsAsciiAlnum(s[0]) then [s[0]] else [];
      assert KeepAlnum(s) == head + KeepAlnum(s[1..]);
    }
  }

  /** Every character of the stem is a lower-case ASCII letter or a digit, and it is never longer than the input. */
  lemma FileifyLowerAlnum(s: string)
    ensures forall k :: 0 <= k < |Fileify(s)| ==> IsLowerAlnum(Fileify(s)[k])
    ensures |Fileify(s)| <= |s|
  {
    KeepAlnumAlnum(s);
    ToLowerAt(KeepAlnum(s));
  }

  lemma {:induction false} KeepAlnumAppend(a: string, b: string)
    ensures KeepAlnum(a + b) == KeepAlnum(a) + KeepAlnum(b)
    decreases |a|
  {
    if a != [] {
      assert (a + b)[1..] == a[1..] + b;
      KeepAlnumAppend(a[1..], b);
    } else {
      assert a + b == b;
    }
  }

  lemma {:induction false} ToLowerAppend(a: string, b: string)
    ensures ToLower(a + b) == ToLower(a) + ToLower(b)
    decreases |a|
  {
    if a != [] {
      assert (a + b)[1..] == a[1..] + b;
      ToLowerAppend(a[1..], b);
    } else {
      assert a + b == b;
    }
  }

  /**
   * `fileify` works character by character: it distributes over
   * concatenation and maps one character to its lower-case self when it is
   * an ASCII letter or digit and to nothing otherwise. These two facts
   * determine it completely.
   */
  lemma FileifyAppend(a: string, b: string)
    ensures Fileify(a + b) == Fileify(a) + Fileify(b)
  {
    KeepAlnumAppend(a, b);
    ToLowerAppend(KeepAlnum(a), KeepAlnum(b));
  }

  lemma FileifyChar(c: char)
    ensures Fileify([c]) == if IsAsciiAlnum(c) then [ToLowerChar(c)] else []
  {
    assert [c][1..] == [];
    assert KeepAlnum([c]) == if IsAsciiAlnum(c) then [c] else [];
    ToLowerAt(KeepAlnum([c]));
  }

  /** A string of ASCII letters and digits passes the filter unchanged. */
  lemma {:induction false} KeepAlnumOfAlnum(s: string)
    requires forall k :: 0 <= k < |s| ==> IsAsciiAlnum(s[k])
    ensures KeepAlnum(s) == s
    decreases |s|
  {
    if s != [] {
      KeepAlnumOfAlnum(s[1..]);
      assert s == [s[0]] + s[1..];
    }
  }

  /** `fileify` leaves a string alone exactly when it is already lower-case ASCII letters and digits. */
  lemma FileifyFixpoint(s: string)
    ensures Fileify(s) == s <==> forall k :: 0 <= k < |s| ==> IsLowerAlnum(s[k])
  {
    FileifyLowerAlnum(s);
    if forall k :: 0 <= k < |s| ==> IsLowerAlnum(s[k]) {
      KeepAlnumOfAlnum(s);
      ToLowerAt(s);
      assert ToLower(s) == s;
    }
  }

  /** `fileify` is idempotent. */
  lemma FileifyIdempotent(s: string)
    ensures Fileify(Fileify(s)) == Fileify(s)
  {
    FileifyLowerAlnum(s);
    FileifyFixpoint(Fileify(s));
  }

  /** A word of ASCII letters and digits only loses its upper case. */
  lemma FileifyWord(s: string)
    requires forall k :: 0 <= k < |s| ==> IsAsciiAlnum(s[k])
    ensures Fileify(s) == ToLower(s)
  {
    KeepAlnumOfAlnum(s);
  }

  /** A character that is not a letter or digit vanishes at either end. */
  lemma FileifyDropsEnd(c: char, w: string)
    requires !IsAsciiAlnum(c)
    ensures Fileify([c] + w) == Fileify(w)
    ensures Fileify(w + [c]) == Fileify(w)
  {
    FileifyAppend([c], w);
    FileifyAppend(w, [c]);
    FileifyChar(c);
    assert [] + Fileify(w) == Fileify(w);
    assert Fileify(w) + [] == Fileify(w);
  }

  /** A pointer to a qualified type keeps the two words, lower-cased. */
  lemma FileifyQualifiedPointer(pkg: string, typ: string)
    requires forall k :: 0 <= k < |pkg| ==> IsAsciiAlnum(pkg[k])
    requires forall k :: 0 <= k < |typ| ==> IsAsciiAlnum(typ[k])
    ensures Fileify(['*'] + pkg + ['.'] + typ) == ToLower(pkg) + ToLower(typ)
  {
    var a := ['*'] + pkg;
    var b := a + ['.'];
    FileifyAppend(b, typ);
    FileifyDropsEnd('.', a);
    FileifyDropsEnd('*', pkg);
    FileifyWord(pkg);
    FileifyWord(typ);
  }

  /** The cases of the file-name test: a plain name, braces dropped, a pointer to a qualified type. */
  lemma FileifyKeepsInt64()
    ensures Fileify("int64") == "int64"
  {
    FileifyFixpoint("int64");
  }

  /** Braces after a lower-case word vanish. */
  lemma FileifyBraced(w: string)
    requires forall k :: 0 <= k < |w| ==> IsLowerAlnum(w[k])
    ensures Fileify(w + ['{', '}']) == w
  {
    assert w + ['{', '}'] == w + ['{'] + ['}'];
    FileifyDropsEnd('}', w + ['{']);
    FileifyDropsEnd('{', w);
    FileifyFixpoint(w);
  }

  lemma FileifyDropsBraces()
    ensures Fileify("interface{}") == "interface"
  {
    FileifyBraced("interface");
    assert "interface" + ['{', '}'] == "interface{}";
  }

  lemma FileifyPointerToQualified()
    ensures Fileify("*os.File") == "osfile"
  {
    FileifyQualifiedPointer("os", "File");
    assert ['*'] + "os" + ['.'] + "File" == "*os.File";
    assert ToLower("os") + ToLower("File") == "osfile";
  }

  lemma FileifyKeepsFloat64()
    ensures Fileify("float64") == "float64"
  {
    FileifyFixpoint("float64");
  }
}

=== FILE: generator.dfy ===
/**
 * The generation engine of generator.go: parse the requested types, then
 * run a fixed list of section steps into one buffer, stopping at the first
 * error, and name the output file after the element type.
 *
 * Rendering a template is a parameter `render`: given the section, whether
 * the type is a channel (which selects the template variant) and the data
 * handed to the template, it yields the text or the error of looking up or
 * executing the template. `go/format.Source` is the parameter `format`.
 */
module Generator {
  import opened Results
  import opened Text
  import opened StringOrder
  import opened Pipeline
  import opened FileNames
  import opened TypeParsing

  /** The command-line options of one run. */
  datatype Options = Options(
    RawType: string,
    Package: string,
    Map: seq<string>,
    Filter: bool,
    All: bool,
    Some: bool,
    ForEach: bool,
    Concat: bool,
    Find: bool,
    Reverse: bool,
    Splice: bool,
    Reduce: seq<string>,
    Array: bool)

  /** What `parseTypes` fills in: the main type, the map targets and the reduce accumulators. */
  datatype Descriptors = Descriptors(Type: TypeDef, MapResults: seq<TypeDef>, ReduceTypes: seq<TypeDef>)

  /** The zero `TypeDef` a fresh generator holds. */
  const NoType := TypeDef("", "", "", false)

  /** The steps of `generateCode`. */
  datatype Section =
    | PackageSection | ImportsSection | TypeSection | MapSection | MapResultsSection
    | FilterSection | AllSection | SomeSection | ForEachSection | ConcatSection
    | FindSection | ReverseSection | SpliceSection | ReduceSection | ArraySection

  /** The steps in the order `generateCode` runs them. */
  const Sections: seq<Section> := [
    PackageSection, ImportsSection, TypeSection, MapSection, MapResultsSection,
    FilterSection, AllSection, SomeSection, ForEachSection, ConcatSection,
    FindSection, ReverseSection, SpliceSection, ReduceSection, ArraySection]

  /** The value a section's template is executed with. */
  datatype RenderData =
    | TypeData(typ: TypeDef)
    | ImportsData(packages: seq<string>)
    | MapResultsData(name: string, results: seq<TypeDef>)
    | ReducersData(name: string, elem: string, reducers: seq<TypeDef>)

  /** Template lookup and execution for a section, for the plain or the channel variant. */
  type Renderer = (Section, bool, RenderData) -> Result<string, Error>

  /** Source formatting of the generated code. */
  type Formatter = string -> Result<string, Error>

  // ---------------------------------------------------------------------------
  // Imports

  /** The non-empty packages of the map targets. */
  function MapPackages(results: seq<TypeDef>): set<string> {
    set k | 0 <= k < |results| && results[k].Package != "" :: results[k].Package
  }

  /**
   * The packages `generateImports` collects: `errors`, the type's own
   * package, the map targets' packages and, for a channel type with
   * `Concat`, `sync`; empty package names are skipped.
   */
  function ImportSet(t: TypeDef, results: seq<TypeDef>, concat: bool): set<string> {
    {"errors"}
    + (if t.Package != "" then {t.Package} else {})
    + MapPackages(results)
    + (if t.IsChan && concat then {"sync"} else {})
  }

  /** The import list a run renders: the collected packages in ascending order. */
  ghost function ImportList(d: Descriptors, concat: bool): seq<string> {
    SortedElems(ImportSet(d.Type, d.MapResults, concat))
  }

  /** Who belongs to the collected set. */
  lemma ImportSetMembers(t: TypeDef, results: seq<TypeDef>, concat: bool, x: string)
    ensures x in ImportSet(t, results, concat) <==>
      x == "errors" ||
      (x != "" && x == t.Package) ||
      (x != "" && exists k :: 0 <= k < |results| && results[k].Package == x) ||
      (x == "sync" && t.IsChan && concat)
  {
    if x != "" && exists k :: 0 <= k < |results| && results[k].Package == x {
      var k :| 0 <= k < |results| && results[k].Package == x;
      assert x in MapPackages(results);
    }
  }

  /**
   * The import list is strictly ascending (so free of duplicates), holds
   * `errors`, the type's package and every map target's package when they
   * are not empty, holds `sync` exactly for a channel type with `Concat`
   * (or when some package is literally named so), and nothing else; the
   * reduce accumulators' packages are not imported.
   */
  lemma ImportListContents(d: Descriptors, concat: bool, x: string)
    ensures StrictlySorted(ImportList(d, concat))
    ensures x in ImportList(d, concat) <==>
      x == "errors" ||
      (x != "" && x == d.Type.Package) ||
      (x != "" && exists k :: 0 <= k < |d.MapResults| && d.MapResults[k].Package == x) ||
      (x == "sync" && d.Type.IsChan && concat)
  {
    var l := ImportList(d, concat);
    assert x in l <==> x in Elems(l);
    ImportSetMembers(d.Type, d.MapResults, concat, x);
  }

  /** Adding the next map target to the scanned prefix adds its package when it has one. */
  lemma MapPackagesStep(results: seq<TypeDef>, i: nat)
    requires i < |results|
    ensures MapPackages(results[..i + 1]) ==
      MapPackages(results[..i]) + (if results[i].Package != "" then {results[i].Package} else {})
  {
    var a := results[..i];
    var b := results[..i + 1];
    forall x | x in MapPackages(b)
      ensures x in MapPackages(a) || (results[i].Package != "" && x == results[i].Package)
    {
      var k :| 0 <= k < |b| && b[k].Package != "" && b[k].Package == x;
      if k < i {
        assert a[k] == b[k];
      }
    }
    forall x | x in MapPackages(a)
      ensures x in MapPackages(b)
    {
      var k :| 0 <= k < |a| && a[k].Package != "" && a[k].Package == x;
      assert b[k] == a[k];
    }
    if results[i].Package != "" {
      assert b[i] == results[i];
    }
  }

  // ---------------------------------------------------------------------------
  // Sections

  /** Whether a section is asked for: the first three always are, the others by their option. */
  predicate Requested(o: Options, s: Section) {
    match s
    case PackageSection => true
    case ImportsSection => true
    case TypeSection => true
    case MapSection => |o.Map| > 0
    case MapResultsSection => |o.Map| > 0
    case FilterSection => o.Filter
    case AllSection => o.All
    case SomeSection => o.Some
    case ForEachSection => o.ForEach
    case ConcatSection => o.Concat
    case FindSection => o.Find
    case ReverseSection => o.Reverse
    case SpliceSection => o.Splice
    case ReduceSection => |o.Reduce| > 0
    case ArraySection => o.Array
  }

  /** Whether a section can be produced for a channel (`isChan`) or plain type. */
  predicate Supported(isChan: bool, s: Section) {
    match s
    case AllSection => !isChan
    case SomeSection => !isChan
    case FindSection => !isChan
    case ReverseSection => !isChan
    case SpliceSection => !isChan
    case ArraySection => isChan
    case _ => true
  }

  /**
   * One step of `generateCode`: the `generatePackage` ... `generateArray`
   * functions, each with its own condition, capability check and template
   * data. `imports` is the sorted list `generateImports` renders.
   */
  function Emit(o: Options, d: Descriptors, render: Renderer, imports: seq<string>, s: Section): Result<string, Error> {
    var isChan := d.Type.IsChan;
    match s
    case PackageSection => Ok("package " + o.Package + "\n\n")
    case ImportsSection => render(s, isChan, ImportsData(imports))
    case TypeSection => render(s, isChan, TypeData(d.Type))
    case MapSection =>
      if |o.Map| > 0 then render(s, isChan, TypeData(d.Type)) else Ok("")
    case MapResultsSection =>
      if |o.Map| > 0 then render(s, isChan, MapResultsData(d.Type.Name, d.MapResults)) else Ok("")
    case FilterSection =>
      if o.Filter then render(s, isChan, TypeData(d.Type)) else Ok("")
    case AllSection =>
      if !o.All then Ok("")
      else if isChan then Err(Error("chan type does not support all"))
      else render(s, isChan, TypeData(d.Type))
    case SomeSection =>
      if !o.Some then Ok("")
      else if isChan then Err(Error("chan type does not support some"))
      else render(s, isChan, TypeData(d.Type))
    case ForEachSection =>
      if o.ForEach then render(s, isChan, TypeData(d.Type)) else Ok("")
    case ConcatSection =>
      if o.Concat then render(s, isChan, TypeData(d.Type)) else Ok("")
    case FindSection =>
      if !o.Find then Ok("")
      else if isChan then Err(Error("chan iter does not support find"))
      else render(s, isChan, TypeData(d.Type))
    case ReverseSection =>
      if !o.Reverse then Ok("")
      else if isChan then Err(Error("chan iter does not support reverse"))
      else render(s, isChan, TypeData(d.Type))
    case SpliceSection =>
      if !o.Splice then Ok("")
      else if isChan then Err(Error("a chan iter does not support splice"))
      else render(s, isChan, TypeData(d.Type))
    case ReduceSection =>
      if |o.Reduce| > 0 then render(s, isChan, ReducersData(d.Type.Name, d.Type.Type, d.ReduceTypes))
      else Ok("")
    case ArraySection =>
      if !o.Array then Ok("")
      else if !isChan then Err(Error("array is not supported on non-channel types"))
      else render(s, isChan, TypeData(d.Type))
  }

  /** A section that is not asked for writes nothing and cannot fail. */
  lemma EmitIdle(o: Options, d: Descriptors, render: Renderer, imports: seq<string>, s: Section)
    requires !Requested(o, s)
    ensures Emit(o, d, render, imports, s) == Ok("")
  {
  }

  /** The value a section's template is executed with. */
  function DataFor(d: Descriptors, imports: seq<string>, s: Section): RenderData {
    match s
    case ImportsSection => ImportsData(imports)
    case MapResultsSection => MapResultsData(d.Type.Name, d.MapResults)
    case ReduceSection => ReducersData(d.Type.Name, d.Type.Type, d.ReduceTypes)
    case _ => TypeData(d.Type)
  }

  /**
   * A section that is asked for but not available for the kind of type
   * fails, whatever the templates; every other section asked for, except
   * the package clause, is exactly its template's output for its data.
   */
  lemma EmitRequested(o: Options, d: Descriptors, render: Renderer, imports: seq<string>, s: Section)
    requires Requested(o, s) && s != PackageSection
    ensures !Supported(d.Type.IsChan, s) ==> Emit(o, d, render, imports, s).Err?
    ensures Supported(d.Type.IsChan, s) ==> Emit(o, d, render, imports, s) == render(s, d.Type.IsChan, DataFor(d, imports, s))
  {
  }

  /** With working templates a section fails exactly when it is asked for and not available. */
  lemma EmitOk(o: Options, d: Descriptors, render: Renderer, imports: seq<string>, s: Section)
    requires TotalRenderer(render)
    ensures Emit(o, d, render, imports, s).Ok? <==> !Requested(o, s) || Supported(d.Type.IsChan, s)
  {
    if Requested(o, s) && s != PackageSection {
      EmitRequested(o, d, render, imports, s);
    }
  }

  /** The step function handed to the pipeline. */
  function Emitter(o: Options, d: Descriptors, render: Renderer, imports: seq<string>): Section -> Result<string, Error> {
    s => Emit(o, d, render, imports, s)
  }

  /** `generateCode`: every section in order into one buffer, or the first error. */
  ghost function Code(o: Options, d: Descriptors, render: Renderer): Result<string, Error> {
    RunAll(Sections, Emitter(o, d, render, ImportList(d, o.Concat)))
  }

  /** The capability rules: no All, Some, Find, Reverse or Splice for a channel, no Array for a plain type. */
  predicate CapabilitiesHold(o: Options, isChan: bool) {
    if isChan then !(o.All || o.Some || o.Find || o.Reverse || o.Splice) else !o.Array
  }

  /** A renderer whose templates all exist and execute. */
  ghost predicate TotalRenderer(render: Renderer) {
    forall s, isChan, data :: render(s, isChan, data).Ok?
  }

  /** Where a section stands in the run: every section is run once. */
  function Position(s: Section): (k: nat)
    ensures k < |Sections| && Sections[k] == s
  {
    match s
    case PackageSection => 0
    case ImportsSection => 1
    case TypeSection => 2
    case MapSection => 3
    case MapResultsSection => 4
    case FilterSection => 5
    case AllSection => 6
    case SomeSection => 7
    case ForEachSection => 8
    case ConcatSection => 9
    case FindSection => 10
    case ReverseSection => 11
    case SpliceSection => 12
    case ReduceSection => 13
    case ArraySection => 14
  }

  /** The section whose check a violation of the capability rules trips first. */
  function FirstViolation(o: Options, isChan: bool): (s: Section)
    requires !CapabilitiesHold(o, isChan)
    ensures Requested(o, s) && !Supported(isChan, s)
    ensures forall s' :: Position(s') < Position(s) ==> !Requested(o, s') || Supported(isChan, s')
  {
    if !isChan then ArraySection
    else if o.All then AllSection
    else if o.Some then SomeSection
    else if o.Find then FindSection
    else if o.Reverse then ReverseSection
    else SpliceSection
  }

  /** The capability rules hold exactly when every requested section is available. */
  lemma CapabilitiesHoldSections(o: Options, isChan: bool, s: Section)
    requires CapabilitiesHold(o, isChan)
    ensures !Requested(o, s) || Supported(isChan, s)
  {
  }

  /**
   * When the templates never fail, generation succeeds exactly when the
   * requested functions are all available for the kind of type.
   */
  lemma CodeSucceedsIffCapable(o: Options, d: Descriptors, render: Renderer)
    requires TotalRenderer(render)
    ensures Code(o, d, render).Ok? <==> CapabilitiesHold(o, d.Type.IsChan)
  {
    var imports := ImportList(d, o.Concat);
    var out := Emitter(o, d, render, imports);
    RunAllOk(Sections, out);
    if CapabilitiesHold(o, d.Type.IsChan) {
      forall k | 0 <= k < |Sections|
        ensures out(Sections[k]).Ok?
      {
        CapabilitiesHoldSections(o, d.Type.IsChan, Sections[k]);
        EmitOk(o, d, render, imports, Sections[k]);
      }
    } else {
      CapabilityViolationFails(o, d, render);
    }
  }

  /**
   * Asking for All, Some, Find, Reverse or Splice on a channel type, or
   * for Array on a plain type, makes generation fail whatever the templates.
   */
  lemma CapabilityViolationFails(o: Options, d: Descriptors, render: Renderer)
    requires !CapabilitiesHold(o, d.Type.IsChan)
    ensures Code(o, d, render).Err?
  {
    var imports := ImportList(d, o.Concat);
    var out := Emitter(o, d, render, imports);
    var k := ViolationStepFails(o, d, render, imports);
    RunAllOk(Sections, out);
  }

  /** The step of the first violated rule fails. */
  lemma ViolationStepFails(o: Options, d: Descriptors, render: Renderer, imports: seq<string>) returns (k: nat)
    requires !CapabilitiesHold(o, d.Type.IsChan)
    ensures k < |Sections| && Emitter(o, d, render, imports)(Sections[k]).Err?
  {
    var s := FirstViolation(o, d.Type.IsChan);
    k := Position(s);
    EmitRequested(o, d, render, imports, s);
  }

  /**
   * The first failing step decides the error: with working templates, a
   * channel type asking for both All and Some is refused for All, whose step
   * comes first.
   */
  lemma ChanAllBeforeSome(o: Options, d: Descriptors, render: Renderer)
    requires TotalRenderer(render) && d.Type.IsChan && o.All && o.Some
    ensures Code(o, d, render) == Err(Error("chan type does not support all"))
  {
    var imports := ImportList(d, o.Concat);
    EarlyStepsOk(o, d, render, imports);
    ChanAllStepFails(o, d, render, imports);
    FirstErrorWins(Sections, Emitter(o, d, render, imports), 6);
  }

  /** With working templates the six steps before All succeed. */
  lemma EarlyStepsOk(o: Options, d: Descriptors, render: Renderer, imports: seq<string>)
    requires TotalRenderer(render)
    ensures forall j :: 0 <= j < 6 ==> Emitter(o, d, render, imports)(Sections[j]).Ok?
  {
    forall j | 0 <= j < 6
      ensures Emitter(o, d, render, imports)(Sections[j]).Ok?
    {
      EarlySectionSupported(d.Type.IsChan, j);
      EmitOk(o, d, render, imports, Sections[j]);
    }
  }

  /** The All step refuses a channel type. */
  lemma ChanAllStepFails(o: Options, d: Descriptors, render: Renderer, imports: seq<string>)
    requires d.Type.IsChan && o.All
    ensures Sections[6] == AllSection
    ensures Emitter(o, d, render, imports)(Sections[6]) == Err(Error("chan type does not support all"))
  {
  }

  /** The six steps before All are available for every kind of type. */
  lemma EarlySectionSupported(isChan: bool, j: nat)
    requires j < 6
    ensures Supported(isChan, Sections[j])
  {
  }

  /** No optional section is asked for. */
  predicate NothingOptional(o: Options) {
    |o.Map| == 0 && !o.Filter && !o.All && !o.Some && !o.ForEach && !o.Concat &&
    !o.Find && !o.Reverse && !o.Splice && |o.Reduce| == 0 && !o.Array
  }

  /** The sections after the first three. */
  const Optional: seq<Section> := [
    MapSection, MapResultsSection, FilterSection, AllSection, SomeSection, ForEachSection,
    ConcatSection, FindSection, ReverseSection, SpliceSection, ReduceSection, ArraySection]

  lemma SectionsSplit()
    ensures Sections == [PackageSection, ImportsSection, TypeSection] + Optional
  {
  }

  lemma OptionalIdle(o: Options, d: Descriptors, render: Renderer, imports: seq<string>)
    requires NothingOptional(o)
    ensures RunAll(Optional, Emitter(o, d, render, imports)) == Ok("")
  {
    var out := Emitter(o, d, render, imports);
    forall k | 0 <= k < |Optional|
      ensures out(Optional[k]) == Ok("")
    {
      EmitIdle(o, d, render, imports, Optional[k]);
    }
    RunAllIdle(Optional, out);
  }

  lemma ThenNothing(r: Result<string, Error>)
    ensures Then(r, Ok("")) == r
  {
    if r.Ok? {
      assert r.value + "" == r.value;
    }
  }

  /** With no optional section asked for, the file is the package clause, the imports and the type. */
  lemma CodeMinimal(o: Options, d: Descriptors, render: Renderer)
    requires NothingOptional(o)
    ensures Code(o, d, render) == RunAll([PackageSection, ImportsSection, TypeSection], Emitter(o, d, render, ImportList(d, o.Concat)))
  {
    var out := Emitter(o, d, render, ImportList(d, o.Concat));
    var head := [PackageSection, ImportsSection, TypeSection];
    SectionsSplit();
    RunAllAppend(head, Optional, out);
    OptionalIdle(o, d, render, ImportList(d, o.Concat));
    ThenNothing(RunAll(head, out));
  }

  /** Steps that all write nothing leave the buffer empty. */
  lemma {:induction false} RunAllIdle<S>(steps: seq<S>, out: S -> Result<string, Error>)
    requires forall k :: 0 <= k < |steps| ==> out(steps[k]) == Ok("")
    ensures RunAll(steps, out) == Ok("")
    decreases |steps|
  {
    if steps != [] {
      var n := |steps| - 1;
      assert forall k :: 0 <= k < n ==> steps[..n][k] == steps[k];
      RunAllIdle(steps[..n], out);
      assert out(steps[n]) == Ok("");
      assert "" + "" == "";
    }
  }

  /** A generated file starts with the package clause `package <Package>` and a blank line. */
  lemma CodeStartsWithPackage(o: Options, d: Descriptors, render: Renderer)
    requires Code(o, d, render).Ok?
    ensures HasPrefix(Code(o, d, render).value, "package " + o.Package + "\n\n")
  {
    RunAllFirst(Sections, Emitter(o, d, render, ImportList(d, o.Concat)));
  }

  // ---------------------------------------------------------------------------
  // Parsing

  /**
   * Parse tokens in order with `parse`, stopping at the first failure: the
   * results for the tokens before it, and its error.
   */
  function ParseAll<T, E>(raws: seq<string>, parse: string -> Result<T, E>): (seq<T>, Option<E>)
    decreases |raws|
  {
    if raws == [] then ([], None)
    else
      var (done, err) := ParseAll(raws[..|raws| - 1], parse);
      if err.Some? then (done, err)
      else
        match parse(raws[|raws| - 1])
        case Err(e) => (done, Some(e))
        case Ok(t) => (done + [t], None)
  }

  /** Parsing succeeds exactly when every token parses. */
  lemma {:induction false} ParseAllOk<T, E>(raws: seq<string>, parse: string -> Result<T, E>)
    ensures ParseAll(raws, parse).1.None? <==> forall k :: 0 <= k < |raws| ==> parse(raws[k]).Ok?
    decreases |raws|
  {
    if raws != [] {
      var n := |raws| - 1;
      var init := raws[..n];
      ParseAllOk(init, parse);
      assert forall k :: 0 <= k < n ==> init[k] == raws[k];
    }
  }

  /** Without an error, the results are the parses of the tokens, in order. */
  lemma {:induction false} ParseAllValues<T, E>(raws: seq<string>, parse: string -> Result<T, E>)
    requires ParseAll(raws, parse).1.None?
    ensures |ParseAll(raws, parse).0| == |raws|
    ensures forall k :: 0 <= k < |raws| ==> parse(raws[k]) == Ok(ParseAll(raws, parse).0[k])
    decreases |raws|
  {
    if raws != [] {
      var n := |raws| - 1;
      ParseAllValues(raws[..n], parse);
      assert forall k :: 0 <= k < n ==> raws[..n][k] == raws[k];
    }
  }

  /** Token `i` is the first one that does not parse. */
  predicate FirstFailure<T, E>(raws: seq<string>, parse: string -> Result<T, E>, i: nat)
    requires i < |raws|
  {
    parse(raws[i]).Err? && forall k :: 0 <= k < i ==> parse(raws[k]).Ok?
  }

  /**
   * With an error, it is the error of the first token that fails, and the
   * results are the parses of the tokens before it.
   */
  lemma {:induction false} ParseAllError<T, E>(raws: seq<string>, parse: string -> Result<T, E>)
    requires ParseAll(raws, parse).1.Some?
    ensures exists i :: (0 <= i < |raws| && FirstFailure(raws, parse, i) &&
      ParseAll(raws, parse).1.value == parse(raws[i]).error &&
      ParseAll(raws, parse).0 == ParseAll(raws[..i], parse).0)
    decreases |raws|
  {
    var n := |raws| - 1;
    var init := raws[..n];
    if ParseAll(init, parse).1.Some? {
      ParseAllError(init, parse);
      var i :| 0 <= i < n && FirstFailure(init, parse, i) &&
        ParseAll(init, parse).1.value == parse(init[i]).error &&
        ParseAll(init, parse).0 == ParseAll(init[..i], parse).0;
      assert init[..i] == raws[..i];
      assert forall k :: 0 <= k <= i ==> init[k] == raws[k];
      assert FirstFailure(raws, parse, i);
    } else {
      ParseAllOk(init, parse);
      assert forall k :: 0 <= k < n ==> init[k] == raws[k];
      assert FirstFailure(raws, parse, n);
      assert init == raws[..n];
    }
  }

  /** Parsing two lists of tokens one after the other is parsing their concatenation. */
  lemma {:induction false} ParseAllAppend<T, E>(a: seq<string>, b: seq<string>, parse: string -> Result<T, E>)
    ensures ParseAll(a + b, parse) ==
      if ParseAll(a, parse).1.Some? then ParseAll(a, parse)
      else (ParseAll(a, parse).0 + ParseAll(b, parse).0, ParseAll(b, parse).1)
    decreases |b|
  {
    if b == [] {
      assert a + b == a;
      assert ParseAll(a, parse).0 + [] == ParseAll(a, parse).0;
    } else {
      var n := |b| - 1;
      assert (a + b)[..|a + b| - 1] == a + b[..n];
      assert (a + b)[|a + b| - 1] == b[n];
      ParseAllAppend(a, b[..n], parse);
      var x := ParseAll(a, parse).0;
      var y := ParseAll(b[..n], parse).0;
      if ParseAll(a, parse).1.None? && ParseAll(b[..n], parse).1.None? {
        match parse(b[n])
        case Err(_) =>
        case Ok(t) => assert x + y + [t] == x + (y + [t]);
      }
    }
  }

  /**
   * `parseTypes`: the main token, then the map tokens, then the reduce
   * tokens, appending to what the generator already holds; the first error
   * ends it, leaving what was stored up to then.
   */
  function ParseTypesSpec(o: Options, d: Descriptors): (Descriptors, Option<Error>) {
    match ParseType(o.RawType)
    case Err(e) => (d, Some(e))
    case Ok(t) =>
      var (ms, me) := ParseAll(o.Map, ParseType);
      if me.Some? then (Descriptors(t, d.MapResults + ms, d.ReduceTypes), me)
      else
        var (rs, re) := ParseAll(o.Reduce, ParseType);
        (Descriptors(t, d.MapResults + ms, d.ReduceTypes + rs), re)
  }

  /** The three ways `parseTypes` ends: at the main token, in the map tokens, or after the reduce tokens. */
  lemma ParseTypesMainError(o: Options, d: Descriptors)
    requires ParseType(o.RawType).Err?
    ensures ParseTypesSpec(o, d) == (d, Some(ParseType(o.RawType).error))
  {
  }

  lemma ParseTypesMapError(o: Options, d: Descriptors, t: TypeDef)
    requires ParseType(o.RawType) == Ok(t) && ParseAll(o.Map, ParseType).1.Some?
    ensures ParseTypesSpec(o, d) ==
      (Descriptors(t, d.MapResults + ParseAll(o.Map, ParseType).0, d.ReduceTypes), ParseAll(o.Map, ParseType).1)
  {
  }

  lemma ParseTypesReduces(o: Options, d: Descriptors, t: TypeDef)
    requires ParseType(o.RawType) == Ok(t) && ParseAll(o.Map, ParseType).1.None?
    ensures ParseTypesSpec(o, d) ==
      (Descriptors(t, d.MapResults + ParseAll(o.Map, ParseType).0, d.ReduceTypes + ParseAll(o.Reduce, ParseType).0),
       ParseAll(o.Reduce, ParseType).1)
  {
  }

  /** `parseTypes` reports the error of the first of all its tokens that fails to parse. */
  lemma ParseTypesFirstError(o: Options, d: Descriptors)
    ensures ParseTypesSpec(o, d).1 == ParseAll([o.RawType] + o.Map + o.Reduce, ParseType).1
  {
    ParseAllAppend([o.RawType], o.Map, ParseType);
    ParseAllAppend([o.RawType] + o.Map, o.Reduce, ParseType);
    assert [o.RawType][..0] == [];
  }

  /**
   * On a fresh generator, when `parseTypes` succeeds the map targets and
   * reduce accumulators are exactly the parses of the map and reduce
   * tokens, in the same order.
   */
  lemma ParseTypesSuccess(o: Options)
    requires ParseTypesSpec(o, Descriptors(NoType, [], [])).1.None?
    ensures var d := ParseTypesSpec(o, Descriptors(NoType, [], [])).0;
      ParseType(o.RawType) == Ok(d.Type) &&
      |d.MapResults| == |o.Map| && (forall k :: 0 <= k < |o.Map| ==> ParseType(o.Map[k]) == Ok(d.MapResults[k])) &&
      |d.ReduceTypes| == |o.Reduce| && (forall k :: 0 <= k < |o.Reduce| ==> ParseType(o.Reduce[k]) == Ok(d.ReduceTypes[k]))
  {
    ParseAllValues(o.Map, ParseType);
    ParseAllValues(o.Reduce, ParseType);
    var ms := ParseAll(o.Map, ParseType).0;
    var rs := ParseAll(o.Reduce, ParseType).0;
    assert [] + ms == ms && [] + rs == rs;
  }

  // ---------------------------------------------------------------------------
  // Output file

  /** `fileName`: the stem of the element type followed by `_iter.go`, or `chan_iter.go` for a channel. */
  function FileName(t: TypeDef): (path: string)
    ensures |path| >= 8 && path[|path| - 8..] == "_iter.go"
    ensures t.IsChan ==> |path| >= 12 && path[|path| - 12..] == "chan_iter.go"
  {
    var stem := Fileify(t.Type);
    var suffix := if t.IsChan then "chan_iter.go" else "_iter.go";
    assert (stem + suffix)[|stem + suffix| - |suffix|..] == suffix;
    stem + suffix
  }

  /** The name is the file-name form of the type followed by the suffix for its kind. */
  lemma FileNameParts(t: TypeDef, stem: string)
    requires Fileify(t.Type) == stem
    ensures FileName(t) == stem + (if t.IsChan then "chan_iter.go" else "_iter.go")
  {
  }

  lemma CutSuffix(a: string, b: string)
    ensures (a + b)[..|a|] == a
  {
  }

  /** Cutting the suffix off the name gives back the file-name form of the type. */
  lemma FileNameStem(t: TypeDef)
    ensures var path := FileName(t);
      var n := if t.IsChan then 12 else 8;
      |path| >= n && path[..|path| - n] == Fileify(t.Type)
  {
    var stem := Fileify(t.Type);
    FileNameParts(t, stem);
    CutSuffix(stem, if t.IsChan then "chan_iter.go" else "_iter.go");
  }

  /** The channel suffix is the channel tag, which is lower-case, before the plain suffix. */
  lemma ChanSuffix(stem: string)
    ensures stem + "chan_iter.go" == (stem + "chan") + "_iter.go"
    ensures AllLowerAlnum("chan")
  {
    assert "chan_iter.go" == "chan" + "_iter.go";
  }

  predicate AllLowerAlnum(s: string) {
    forall k :: 0 <= k < |s| ==> IsLowerAlnum(s[k])
  }

  lemma LowerAlnumConcat(a: string, b: string)
    requires AllLowerAlnum(a) && AllLowerAlnum(b)
    ensures AllLowerAlnum(a + b)
  {
    forall k | |a| <= k < |a + b|
      ensures IsLowerAlnum((a + b)[k])
    {
      assert (a + b)[k] == b[k - |a|];
    }
  }

  lemma LowerAlnumPrefix(a: string, b: string)
    requires AllLowerAlnum(a)
    ensures forall k :: 0 <= k < |a| ==> IsLowerAlnum((a + b)[k])
  {
  }

  /** Everything before `_iter.go` is lower-case ASCII letters and digits. */
  lemma FileNameLower(t: TypeDef)
    ensures var path := FileName(t);
      forall k :: 0 <= k < |path| - 8 ==> IsLowerAlnum(path[k])
  {
    var stem := Fileify(t.Type);
    FileifyLowerAlnum(t.Type);
    assert AllLowerAlnum(stem);
    FileNameParts(t, stem);
    var head := stem;
    if t.IsChan {
      ChanSuffix(stem);
      LowerAlnumConcat(stem, "chan");
      head := stem + "chan";
    }
    assert FileName(t) == head + "_iter.go";
    LowerAlnumPrefix(head, "_iter.go");
  }

  /** The cases of the file-name test. */
  lemma FileNameOsFile()
    ensures FileName(TypeDef("OsFile", "os", "*os.File", false)) == "osfile_iter.go"
  {
    FileifyPointerToQualified();
    FileNameParts(TypeDef("OsFile", "os", "*os.File", false), "osfile");
    OsFileSuffixed();
  }

  lemma OsFileSuffixed()
    ensures "osfile" + "_iter.go" == "osfile_iter.go"
  {
  }

  lemma FileNameInt64()
    ensures FileName(TypeDef("Int64", "", "int64", false)) == "int64_iter.go"
  {
    FileifyKeepsInt64();
    FileNameParts(TypeDef("Int64", "", "int64", false), "int64");
    Int64Suffixed();
  }

  lemma Int64Suffixed()
    ensures "int64" + "_iter.go" == "int64_iter.go"
  {
  }

  /** A channel type gets its own file. */
  lemma FileNameChan()
    ensures FileName(TypeDef("Float64", "", "float64", true)) == "float64chan_iter.go"
  {
    FileifyKeepsFloat64();
    FileNameParts(TypeDef("Float64", "", "float64", true), "float64");
    Float64ChanSuffixed();
  }

  lemma Float64ChanSuffixed()
    ensures "float64" + "chan_iter.go" == "float64chan_iter.go"
  {
  }

  /** The file `Generate` would write. */
  datatype OutputFile = OutputFile(path: string, code: string)

  /**
   * `Generate`: parse, generate, format, and name the file; each stage's
   * error is returned as it is and ends the run.
   */
  ghost function GenerateSpec(o: Options, d: Descriptors, render: Renderer, format: Formatter): (Descriptors, Result<OutputFile, Error>) {
    var (parsed, err) := ParseTypesSpec(o, d);
    if err.Some? then (parsed, Err(err.value))
    else
      match Code(o, parsed, render)
      case Err(e) => (parsed, Err(e))
      case Ok(code) =>
        match format(code)
        case Err(e) => (parsed, Err(e))
        case Ok(formatted) => (parsed, Ok(OutputFile(FileName(parsed.Type), formatted)))
  }

  /** A parse error is returned before any template or the formatter is consulted. */
  lemma GenerateParseErrorFirst(o: Options, d: Descriptors, render: Renderer, format: Formatter, render2: Renderer, format2: Formatter)
    requires ParseTypesSpec(o, d).1.Some?
    ensures GenerateSpec(o, d, render, format) == GenerateSpec(o, d, render2, format2)
    ensures GenerateSpec(o, d, render, format).1 == Err(ParseTypesSpec(o, d).1.value)
  {
  }

  /** A generation error is returned before the formatter is consulted. */
  lemma GenerateCodeErrorFirst(o: Options, d: Descriptors, render: Renderer, format: Formatter, format2: Formatter)
    requires ParseTypesSpec(o, d).1.None? && Code(o, ParseTypesSpec(o, d).0, render).Err?
    ensures GenerateSpec(o, d, render, format) == GenerateSpec(o, d, render, format2)
    ensures GenerateSpec(o, d, render, format).1 == Err(Code(o, ParseTypesSpec(o, d).0, render).error)
  {
  }

  /** A successful run writes the formatted code to the file named after the parsed type. */
  lemma GenerateSuccess(o: Options, d: Descriptors, render: Renderer, format: Formatter)
    requires GenerateSpec(o, d, render, format).1.Ok?
    ensures var (parsed, r) := GenerateSpec(o, d, render, format);
      Code(o, parsed, render).Ok? &&
      format(Code(o, parsed, render).value) == Ok(r.value.code) &&
      r.value.path == FileName(parsed.Type)
  {
    var (parsed, err) := ParseTypesSpec(o, d);
    assert err.None?;
    var code := Code(o, parsed, render);
    assert code.Ok?;
    assert format(code.value).Ok?;
  }

  /** One of `parseTypes`' loops: parse the tokens in order, stopping at the first error. */
  method ParseEach<T, E>(raws: seq<string>, parse: string -> Result<T, E>) returns (parsed: seq<T>, err: Option<E>)
    ensures (parsed, err) == ParseAll(raws, parse)
  {
    parsed := [];
    var i := 0;
    while i < |raws|
      invariant 0 <= i <= |raws|
      invariant ParseAll(raws[..i], parse) == (parsed, None)
    {
      assert raws[..i + 1][..i] == raws[..i];
      var td := parse(raws[i]);
      if td.Err? {
        ParseAllAppend(raws[..i + 1], raws[i + 1..], parse);
        assert raws[..i + 1] + raws[i + 1..] == raws;
        return parsed, Some(td.error);
      }
      parsed := parsed + [td.value];
      i := i + 1;
    }
    assert raws[..i] == raws;
    return parsed, None;
  }

  /** The packages `generateImports` gathers into its set. */
  method CollectPackages(t: TypeDef, results: seq<TypeDef>, concat: bool) returns (pkgs: set<string>)
    ensures pkgs == ImportSet(t, results, concat)
  {
    pkgs := {"errors"};
    if t.Package != "" {
      pkgs := pkgs + {t.Package};
    }
    var i := 0;
    while i < |results|
      invariant 0 <= i <= |results|
      invariant pkgs == {"errors"} + (if t.Package != "" then {t.Package} else {}) + MapPackages(results[..i])
    {
      MapPackagesStep(results, i);
      if results[i].Package != "" {
        pkgs := pkgs + {results[i].Package};
      }
      i := i + 1;
    }
    assert results[..i] == results;
    if t.IsChan && concat {
      pkgs := pkgs + {"sync"};
    }
  }

  /** A set's elements listed in whatever order it yields them, then sorted with `sort.Strings`. */
  method ListSorted(pkgs: set<string>) returns (packages: seq<string>)
    ensures packages == SortedElems(pkgs)
  {
    var listed: seq<string> := [];
    var rest := pkgs;
    while rest != {}
      invariant Elems(listed) + rest == pkgs && Elems(listed) !! rest && Distinct(listed)
      decreases |rest|
    {
      var p :| p in rest;
      ListOne(listed, rest, p);
      listed := listed + [p];
      rest := rest - {p};
    }
    packages := Sort(listed);
    SortStrict(listed);
    SameElems(packages, listed);
    StrictlySortedUnique(packages, SortedElems(pkgs));
  }

  /** Moving one element of the unlisted rest to the end of the list keeps the list distinct and the union unchanged. */
  lemma ListOne(listed: seq<string>, rest: set<string>, p: string)
    requires Elems(listed) !! rest && Distinct(listed) && p in rest
    ensures Elems(listed + [p]) == Elems(listed) + {p}
    ensures Distinct(listed + [p]) && Elems(listed + [p]) !! rest - {p}
  {
    var l := listed + [p];
    assert forall i :: 0 <= i < |listed| ==> l[i] == listed[i];
    assert p !in listed by { assert p !in Elems(listed); }
    forall x
      ensures x in Elems(l) <==> x in Elems(listed) || x == p
    {
      assert x in l <==> x in listed || x == p;
    }
  }

  /** Sequences that are permutations of each other have the same elements. */
  lemma SameElems(a: seq<string>, b: seq<string>)
    requires multiset(a) == multiset(b)
    ensures Elems(a) == Elems(b)
  {
    forall x
      ensures x in a <==> x in b
    {
      assert x in a <==> x in multiset(a);
      assert x in b <==> x in multiset(b);
    }
  }

  // ---------------------------------------------------------------------------
  // The generator object

  /** The options of a run and the type definitions `parseTypes` stores. */
  class Generator {
    const options: Options
    var Type: TypeDef
    var MapResults: seq<TypeDef>
    var ReduceTypes: seq<TypeDef>

    function Parsed(): Descriptors
      reads this
    {
      Descriptors(Type, MapResults, ReduceTypes)
    }

    constructor(options: Options)
      ensures this.options == options
      ensures Parsed() == Descriptors(NoType, [], [])
    {
      this.options := options;
      Type := NoType;
      MapResults := [];
      ReduceTypes := [];
    }

    /** `parseTypes`. */
    method ParseTypes() returns (err: Option<Error>)
      modifies this
      ensures (Parsed(), err) == ParseTypesSpec(options, old(Parsed()))
    {
      ghost var before := Parsed();
      var main := ParseType(options.RawType);
      if main.Err? {
        ParseTypesMainError(options, before);
        return Some(main.error);
      }
      Type := main.value;
      var maps, mapErr := ParseEach(options.Map, ParseType);
      MapResults := MapResults + maps;
      if mapErr.Some? {
        ParseTypesMapError(options, before, main.value);
        return mapErr;
      }
      var reduces, reduceErr := ParseEach(options.Reduce, ParseType);
      ReduceTypes := ReduceTypes + reduces;
      ParseTypesReduces(options, before, main.value);
      return reduceErr;
    }

    /** The package list of `generateImports`: the gathered set, sorted. */
    method Imports() returns (packages: seq<string>)
      ensures packages == ImportList(Parsed(), options.Concat)
    {
      var pkgs := CollectPackages(Type, MapResults, options.Concat);
      packages := ListSorted(pkgs);
    }

    /** `generateCode`: run the steps in order into one buffer; the first error discards it. */
    method GenerateCode(render: Renderer) returns (r: Result<string, Error>)
      ensures r == Code(options, Parsed(), render)
    {
      var imports := Imports();
      var out := Emitter(options, Parsed(), render, imports);
      var buf := "";
      var i := 0;
      while i < |Sections|
        invariant 0 <= i <= |Sections|
        invariant RunAll(Sections[..i], out) == Ok(buf)
      {
        assert Sections[..i + 1][..i] == Sections[..i];
        var step := out(Sections[i]);
        if step.Err? {
          RunAllSticky(Sections, out, i + 1);
          return Err(step.error);
        }
        buf := buf + step.value;
        i := i + 1;
      }
      assert Sections[..i] == Sections;
      return Ok(buf);
    }

    /** `fileName` on the stored type: the receiver form of `FileName`, whose properties are proved there. */
    method FileNameOf() returns (path: string)
      ensures path == FileName(Type)
    {
      path := FileName(Type);
    }

    /**
     * `Generate`: parse the types, generate, format and return the file to
     * write, or the first error met.
     */
    method Generate(render: Renderer, format: Formatter) returns (r: Result<OutputFile, Error>)
      modifies this
      ensures (Parsed(), r) == GenerateSpec(options, old(Parsed()), render, format)
    {
      var err := ParseTypes();
      if err.Some? {
        return Err(err.value);
      }
      var code := GenerateCode(render);
      if code.Err? {
        return Err(code.error);
      }
      var formatted := format(code.value);
      if formatted.Err? {
        return Err(formatted.error);
      }
      var path := FileNameOf();
      return Ok(OutputFile(path, formatted.value));
    }
  }

  /** The packages gathered for the import fixture. */
  lemma FixturePackages(results: seq<TypeDef>)
    requires results == [TypeDef("Foo", "foo", "foo.Foo", false), TypeDef("Bar", "github.com/foo/bar", "bar.Bar", false)]
    ensures ImportSet(TypeDef("OsFile", "os", "*os.File", false), results, false) == {"errors", "foo", "github.com/foo/bar", "os"}
  {
    assert MapPackages(results) == {"foo", "github.com/foo/bar"} by {
      assert results[0].Package == "foo" && results[1].Package == "github.com/foo/bar";
    }
  }

  lemma ErrorsBeforeFoo()
    ensures Less("errors", "foo")
  {
  }

  lemma FooBeforeGithub()
    ensures Less("foo", "github.com/foo/bar")
  {
  }

  lemma GithubBeforeOs()
    ensures Less("github.com/foo/bar", "os")
  {
  }

  /** A list whose neighbours are in order is strictly ascending. */
  lemma {:induction false} ChainSorted(s: seq<string>)
    requires forall i :: 0 <= i < |s| - 1 ==> Less(s[i], s[i + 1])
    ensures StrictlySorted(s)
    decreases |s|
  {
    if |s| > 1 {
      ChainSorted(s[1..]);
      forall j | 1 < j < |s|
        ensures Less(s[0], s[j])
      {
        assert s[1..][0] == s[1] && s[1..][j - 1] == s[j];
        LessTransitive(s[0], s[1], s[j]);
      }
      forall i, j | 0 < i < j < |s|
        ensures Less(s[i], s[j])
      {
        assert s[1..][i - 1] == s[i] && s[1..][j - 1] == s[j];
      }
    }
  }

  lemma FixtureSorted(expected: seq<string>)
    requires expected == ["errors", "foo", "github.com/foo/bar", "os"]
    ensures StrictlySorted(expected) && Elems(expected) == {"errors", "foo", "github.com/foo/bar", "os"}
  {
    ErrorsBeforeFoo();
    FooBeforeGithub();
    GithubBeforeOs();
    ChainSorted(expected);
  }

  /** The import fixture: `os` as the type's package, `foo` and `github.com/foo/bar` as map targets. */
  lemma ImportsFixture()
    ensures ImportList(
      Descriptors(TypeDef("OsFile", "os", "*os.File", false),
        [TypeDef("Foo", "foo", "foo.Foo", false), TypeDef("Bar", "github.com/foo/bar", "bar.Bar", false)], []),
      false) == ["errors", "foo", "github.com/foo/bar", "os"]
  {
    var results := [TypeDef("Foo", "foo", "foo.Foo", false), TypeDef("Bar", "github.com/foo/bar", "bar.Bar", false)];
    var expected := ["errors", "foo", "github.com/foo/bar", "os"];
    FixturePackages(results);
    FixtureSorted(expected);
    StrictlySortedUnique(expected, ImportList(Descriptors(TypeDef("OsFile", "os", "*os.File", false), results, []), false));
  }
}

=== FILE: legacy.dfy ===
/**
 * The older generator of generator/generator.go. It splits a token at `:`
 * and derives the name exactly as the current version does, but it knows
 * nothing of channels, so parsing never fails; it lists imports in the
 * order it meets them, duplicates included; its All and Some steps write
 * nothing; and its file name has no channel variant.
 */
module LegacyGenerator {
  import opened Results
  import opened Text
  import opened StringOrder
  import opened Pipeline
  import opened FileNames
  import TypeParsing
  import Current = Generator

  /** The command-line options of one run. */
  datatype Options = Options(RawType: string, Package: string, Map: seq<string>, Filter: bool, All: bool, Some: bool)

  /** A type definition: name, package and type text, with no channel flag. */
  datatype TypeDef = TypeDef(Name: string, Package: string, Type: string)

  /** What `parseTypes` fills in. */
  datatype Parsed = Parsed(Type: TypeDef, MapResults: seq<TypeDef>)

  /** The zero `TypeDef` a fresh generator holds. */
  const NoType := TypeDef("", "", "")

  // ---------------------------------------------------------------------------
  // Parsing

  /**
   * `parseType`: the package and type text of `parseRawType` and the name
   * `getTypeName` derives from the type text, which is kept as written.
   */
  function ParseType(raw: string): (t: TypeDef)
    ensures ':' !in raw ==> t.Package == "" && t.Type == raw
    ensures ':' in raw ==>
      ':' !in t.Package && ':' !in t.Type && HasPrefix(raw, t.Package + ":" + t.Type) &&
      (|t.Package| + 1 + |t.Type| == |raw| || raw[|t.Package| + 1 + |t.Type|] == ':')
    ensures (t.Package, t.Type) == TypeParsing.Qualifier(raw)
    ensures t.Name == TypeParsing.TypeName(t.Type)
  {
    var (pkg, typ) := TypeParsing.Qualifier(raw);
    TypeDef(TypeParsing.TypeName(typ), pkg, typ)
  }

  /** The current version's definition without its channel flag. */
  function Lift(t: TypeDef): TypeParsing.TypeDef {
    TypeParsing.TypeDef(t.Name, t.Package, t.Type, false)
  }

  /**
   * Wherever the current version accepts a token whose type text is a
   * single word, the two versions agree on name, package and type text.
   */
  lemma ParseTypeAgrees(raw: string)
    requires TypeParsing.ParseType(raw).Ok? && ' ' !in TypeParsing.Qualifier(raw).1
    ensures var c := TypeParsing.ParseType(raw).value;
      ParseType(raw) == TypeDef(c.Name, c.Package, c.Type)
  {
    TypeParsing.ParseTypeFields(raw);
    var typ := TypeParsing.Qualifier(raw).1;
    var c := TypeParsing.ParseType(raw).value;
    LastPieceWhole(typ, c.Type, ' ');
  }

  /** A direction arrow, which the current version rejects, is kept in the type text. */
  lemma ParseTypeKeepsDirection()
    ensures ParseType("chan<- int").Package == "" && ParseType("chan<- int").Type == "chan<- int"
    ensures TypeParsing.ParseType("chan<- int").Err?
  {
    TypeParsing.SendOnlyArrow();
    TypeParsing.ParseSendOnly();
  }

  /** The cases of the parse test. */
  lemma ParseOsFile()
    ensures ParseType("os:*os.File") == TypeDef("OsFile", "os", "*os.File")
  {
    assert "os:*os.File" == "os" + ":" + "*os.File" + "";
    TypeParsing.QualifierOf("os", "*os.File", "");
    TypeParsing.TypeNameOsFile();
  }

  lemma ParseGeneratorGenerator()
    ensures ParseType("github.com/mvader/go-itergen/generator:generator.Generator")
      == TypeDef("GeneratorGenerator", "github.com/mvader/go-itergen/generator", "generator.Generator")
  {
    TypeParsing.GeneratorTokenParts();
    assert "github.com/mvader/go-itergen/generator:generator.Generator"
      == "github.com/mvader/go-itergen/generator" + ":" + "generator.Generator" + "";
    TypeParsing.QualifierOf("github.com/mvader/go-itergen/generator", "generator.Generator", "");
    TypeParsing.TypeNameGeneratorGenerator();
  }

  lemma ParseInt64()
    ensures ParseType("int64") == TypeDef("Int64", "", "int64")
  {
    Int64Unqualified();
    TypeParsing.TypeNameInt64();
  }

  lemma Int64Unqualified()
    ensures ':' !in "int64"
  {
  }

  /** The parses of the map tokens, one per token, in order. */
  function ParseAll(raws: seq<string>): (r: seq<TypeDef>)
    ensures |r| == |raws|
    ensures forall k :: 0 <= k < |raws| ==> r[k] == ParseType(raws[k])
    decreases |raws|
  {
    if raws == [] then []
    else ParseAll(raws[..|raws| - 1]) + [ParseType(raws[|raws| - 1])]
  }

  /** Parsing one more token appends its parse. */
  lemma ParseAllSnoc(raws: seq<string>, i: nat)
    requires i < |raws|
    ensures ParseAll(raws[..i + 1]) == ParseAll(raws[..i]) + [ParseType(raws[i])]
  {
    assert raws[..i + 1][..i] == raws[..i];
  }

  // ---------------------------------------------------------------------------
  // Imports

  /** The non-empty packages of the map targets, in order, repeats included. */
  function MapPackageList(results: seq<TypeDef>): (r: seq<string>)
    ensures |r| <= |results|
    decreases |results|
  {
    if results == [] then []
    else
      var last := results[|results| - 1];
      MapPackageList(results[..|results| - 1]) + (if last.Package != "" then [last.Package] else [])
  }

  /** A single map target contributes its package, when it has one. */
  lemma MapPackageListSingle(t: TypeDef)
    ensures MapPackageList([t]) == if t.Package != "" then [t.Package] else []
  {
    assert [t][..0] == [];
  }

  /**
   * The list of a concatenation is the two lists one after the other: the
   * packages come in the order the map targets are met, and a package met
   * twice is listed twice.
   */
  lemma {:induction false} MapPackageListAppend(a: seq<TypeDef>, b: seq<TypeDef>)
    ensures MapPackageList(a + b) == MapPackageList(a) + MapPackageList(b)
    decreases |b|
  {
    if b == [] {
      assert a + b == a;
    } else {
      var n := |b| - 1;
      var last := b[n];
      var tail := if last.Package != "" then [last.Package] else [];
      assert (a + b)[..|a + b| - 1] == a + b[..n];
      assert (a + b)[|a + b| - 1] == last;
      MapPackageListAppend(a, b[..n]);
      assert MapPackageList(a + b) == MapPackageList(a + b[..n]) + tail;
      assert MapPackageList(b) == MapPackageList(b[..n]) + tail;
    }
  }

  /** Every map target with a package puts it on the list. */
  lemma {:induction false} MapPackageListHas(results: seq<TypeDef>, k: nat)
    requires k < |results| && results[k].Package != ""
    ensures results[k].Package in MapPackageList(results)
    decreases |results|
  {
    var n := |results| - 1;
    var front := MapPackageList(results[..n]);
    var back := if results[n].Package != "" then [results[n].Package] else [];
    assert MapPackageList(results) == front + back;
    if k < n {
      assert results[..n][k] == results[k];
      MapPackageListHas(results[..n], k);
    } else {
      assert results[k].Package in back;
    }
  }

  /** Every entry of the list is the non-empty package of some map target. */
  lemma {:induction false} MapPackageListFrom(results: seq<TypeDef>, x: string) returns (k: nat)
    requires x in MapPackageList(results)
    ensures x != "" && k < |results| && results[k].Package == x
    decreases |results|
  {
    var n := |results| - 1;
    var front := MapPackageList(results[..n]);
    var back := if results[n].Package != "" then [results[n].Package] else [];
    assert MapPackageList(results) == front + back;
    if x in front {
      k := MapPackageListFrom(results[..n], x);
      assert results[..n][k] == results[k];
    } else {
      k := n;
    }
  }

  /** A package is listed exactly when some map target has it and it is not empty. */
  lemma MapPackageListElems(results: seq<TypeDef>, x: string)
    ensures x in MapPackageList(results) <==> x != "" && exists k :: 0 <= k < |results| && results[k].Package == x
  {
    if x in MapPackageList(results) {
      var k := MapPackageListFrom(results, x);
    }
    if x != "" && exists k :: 0 <= k < |results| && results[k].Package == x {
      var k :| 0 <= k < |results| && results[k].Package == x;
      MapPackageListHas(results, k);
    }
  }

  /** `generateImports`' list: `errors`, the type's package, then the map targets' packages. */
  function ImportList(p: Parsed): (r: seq<string>)
    ensures |r| >= 1 && r[0] == "errors"
  {
    ["errors"] + (if p.Type.Package != "" then [p.Type.Package] else []) + MapPackageList(p.MapResults)
  }

  function LiftAll(results: seq<TypeDef>): (r: seq<TypeParsing.TypeDef>)
    ensures |r| == |results|
    ensures forall k :: 0 <= k < |results| ==> r[k] == Lift(results[k])
  {
    seq(|results|, k requires 0 <= k < |results| => Lift(results[k]))
  }

  /**
   * The list holds the packages the current version imports for a plain
   * type, as a set; the current version sorts them and drops repeats.
   */
  lemma ImportsAsCurrent(p: Parsed)
    ensures Elems(ImportList(p)) == Current.ImportSet(Lift(p.Type), LiftAll(p.MapResults), false)
  {
    var lifted := LiftAll(p.MapResults);
    forall x
      ensures x in ImportList(p) <==> x in Current.ImportSet(Lift(p.Type), lifted, false)
    {
      MapPackageListElems(p.MapResults, x);
      if x in Current.MapPackages(lifted) {
        var k :| 0 <= k < |lifted| && lifted[k].Package != "" && lifted[k].Package == x;
        assert p.MapResults[k].Package == x;
      }
      if x != "" && exists k :: 0 <= k < |p.MapResults| && p.MapResults[k].Package == x {
        var k :| 0 <= k < |p.MapResults| && p.MapResults[k].Package == x;
        assert lifted[k].Package == x;
      }
    }
  }

  /**
   * Imports come in the order met: more map targets only add their packages
   * at the end, and nothing is sorted or dropped.
   */
  lemma ImportsInOrder(t: TypeDef, a: seq<TypeDef>, b: seq<TypeDef>)
    ensures ImportList(Parsed(t, a + b)) == ImportList(Parsed(t, a)) + MapPackageList(b)
  {
    MapPackageListAppend(a, b);
  }

  /** A map target in the type's own package repeats the import. */
  lemma ImportsKeepRepeats()
    ensures var t := TypeDef("OsFile", "os", "*os.File");
      ImportList(Parsed(t, [t])) == ["errors", "os", "os"]
  {
    var t := TypeDef("OsFile", "os", "*os.File");
    assert [t][..0] == [];
  }

  /** Imports come in the order met, not sorted. */
  lemma ImportsUnsorted()
    ensures var p := Parsed(TypeDef("OsFile", "os", "*os.File"), [TypeDef("Foo", "foo", "foo.Foo")]);
      ImportList(p) == ["errors", "os", "foo"] && Less("foo", "os")
  {
    var r := [TypeDef("Foo", "foo", "foo.Foo")];
    assert r[..0] == [];
  }

  /** `generateImports`: the list built by appending. */
  method CollectImports(p: Parsed) returns (packages: seq<string>)
    ensures packages == ImportList(p)
  {
    packages := ["errors"];
    if p.Type.Package != "" {
      packages := packages + [p.Type.Package];
    }
    var head := packages;
    var i := 0;
    while i < |p.MapResults|
      invariant 0 <= i <= |p.MapResults|
      invariant packages == head + MapPackageList(p.MapResults[..i])
    {
      assert p.MapResults[..i + 1][..i] == p.MapResults[..i];
      if p.MapResults[i].Package != "" {
        packages := packages + [p.MapResults[i].Package];
      }
      i := i + 1;
    }
    assert p.MapResults[..i] == p.MapResults;
  }

  // ---------------------------------------------------------------------------
  // Sections

  /** The steps of `generateCode`. */
  datatype Section =
    | PackageSection | ImportsSection | TypeSection | MapSection | MapResultsSection
    | FilterSection | AllSection | SomeSection

  /** The steps in the order `generateCode` runs them. */
  const Sections: seq<Section> := [
    PackageSection, ImportsSection, TypeSection, MapSection, MapResultsSection,
    FilterSection, AllSection, SomeSection]

  /** The value a section's template is executed with. */
  datatype RenderData =
    | TypeData(typ: TypeDef)
    | ImportsData(packages: seq<string>)
    | MapResultsData(name: string, results: seq<TypeDef>)

  /** Template execution for a section; there is no channel variant. */
  type Renderer = (Section, RenderData) -> Result<string, TypeParsing.Error>

  /** Source formatting of the generated code. */
  type Formatter = string -> Result<string, TypeParsing.Error>

  /** One step of `generateCode`: `generatePackage` ... `generateSome`. */
  function Emit(o: Options, p: Parsed, render: Renderer, imports: seq<string>, s: Section): Result<string, TypeParsing.Error> {
    match s
    case PackageSection => Ok("package " + o.Package + "\n\n")
    case ImportsSection => render(s, ImportsData(imports))
    case TypeSection => render(s, TypeData(p.Type))
    case MapSection => if |o.Map| > 0 then render(s, TypeData(p.Type)) else Ok("")
    case MapResultsSection =>
      if |o.Map| > 0 then render(s, MapResultsData(p.Type.Name, p.MapResults)) else Ok("")
    case FilterSection => if o.Filter then render(s, TypeData(p.Type)) else Ok("")
    case AllSection => Ok("")
    case SomeSection => Ok("")
  }

  /** Whether a step renders a template: map steps with map tokens, filter with its flag, All and Some never. */
  predicate Writes(o: Options, s: Section) {
    match s
    case PackageSection => true
    case ImportsSection => true
    case TypeSection => true
    case MapSection => |o.Map| > 0
    case MapResultsSection => |o.Map| > 0
    case FilterSection => o.Filter
    case AllSection => false
    case SomeSection => false
  }

  /** The value a section's template is executed with. */
  function DataFor(p: Parsed, imports: seq<string>, s: Section): RenderData {
    match s
    case ImportsSection => ImportsData(imports)
    case MapResultsSection => MapResultsData(p.Type.Name, p.MapResults)
    case _ => TypeData(p.Type)
  }

  /**
   * A step that does not write yields nothing and cannot fail; every other
   * step but the package clause is its template's output for its data.
   */
  lemma EmitSteps(o: Options, p: Parsed, render: Renderer, imports: seq<string>, s: Section)
    ensures !Writes(o, s) ==> Emit(o, p, render, imports, s) == Ok("")
    ensures Writes(o, s) && s != PackageSection ==> Emit(o, p, render, imports, s) == render(s, DataFor(p, imports, s))
  {
  }

  function Emitter(o: Options, p: Parsed, render: Renderer, imports: seq<string>): Section -> Result<string, TypeParsing.Error> {
    s => Emit(o, p, render, imports, s)
  }

  /** `generateCode`: every step in order into one buffer, or the first error. */
  function Code(o: Options, p: Parsed, render: Renderer): Result<string, TypeParsing.Error> {
    RunAll(Sections, Emitter(o, p, render, ImportList(p)))
  }

  /** A renderer whose templates all exist and execute. */
  ghost predicate TotalRenderer(render: Renderer) {
    forall s, data :: render(s, data).Ok?
  }

  /** With working templates generation always succeeds: this version checks no capabilities. */
  lemma CodeTotal(o: Options, p: Parsed, render: Renderer)
    requires TotalRenderer(render)
    ensures Code(o, p, render).Ok?
  {
    RunAllOk(Sections, Emitter(o, p, render, ImportList(p)));
  }

  /** The All and Some flags make no difference to the generated code. */
  lemma AllSomeIgnored(o: Options, p: Parsed, render: Renderer, all: bool, some: bool)
    ensures Code(o.(All := all, Some := some), p, render) == Code(o, p, render)
  {
    var o2 := o.(All := all, Some := some);
    var imports := ImportList(p);
    forall k | 0 <= k < |Sections|
      ensures Emitter(o2, p, render, imports)(Sections[k]) == Emitter(o, p, render, imports)(Sections[k])
    {
    }
    RunAllCongruent(Sections, Emitter(o2, p, render, imports), Emitter(o, p, render, imports));
  }

  /** A generated file starts with the package clause and a blank line. */
  lemma CodeStartsWithPackage(o: Options, p: Parsed, render: Renderer)
    requires Code(o, p, render).Ok?
    ensures HasPrefix(Code(o, p, render).value, "package " + o.Package + "\n\n")
  {
    RunAllFirst(Sections, Emitter(o, p, render, ImportList(p)));
  }

  // ---------------------------------------------------------------------------
  // Output file

  /** `fileName`: always the stem of the type followed by `_iter.go`. */
  function FileName(t: TypeDef): (path: string)
    ensures |path| >= 8 && path[|path| - 8..] == "_iter.go"
  {
    var stem := Fileify(t.Type);
    assert (stem + "_iter.go")[|stem|..] == "_iter.go";
    stem + "_iter.go"
  }

  /** The name is the one the current version gives a plain type. */
  lemma FileNameAsCurrent(t: TypeDef)
    ensures FileName(t) == Current.FileName(Lift(t))
  {
    Current.FileNameParts(Lift(t), Fileify(t.Type));
  }

  /** The cases of the file-name test. */
  lemma FileNameOsFile()
    ensures FileName(TypeDef("OsFile", "os", "*os.File")) == "osfile_iter.go"
  {
    FileNameAsCurrent(TypeDef("OsFile", "os", "*os.File"));
    Current.FileNameOsFile();
  }

  lemma FileNameInt64()
    ensures FileName(TypeDef("Int64", "", "int64")) == "int64_iter.go"
  {
    FileNameAsCurrent(TypeDef("Int64", "", "int64"));
    Current.FileNameInt64();
  }

  // ---------------------------------------------------------------------------
  // Generate

  /** `Generate`: parse, generate, format and name the file; only generation and formatting can fail. */
  function GenerateSpec(o: Options, p: Parsed, render: Renderer, format: Formatter): (Parsed, Result<Current.OutputFile, TypeParsing.Error>) {
    var parsed := Parsed(ParseType(o.RawType), p.MapResults + ParseAll(o.Map));
    match Code(o, parsed, render)
    case Err(e) => (parsed, Err(e))
    case Ok(code) =>
      match format(code)
      case Err(e) => (parsed, Err(e))
      case Ok(formatted) => (parsed, Ok(Current.OutputFile(FileName(parsed.Type), formatted)))
  }

  /** With working templates and formatter a run always produces the file named after the main token. */
  lemma GenerateTotal(o: Options, p: Parsed, render: Renderer, format: Formatter)
    requires TotalRenderer(render) && forall code :: format(code).Ok?
    ensures GenerateSpec(o, p, render, format).1.Ok?
    ensures GenerateSpec(o, p, render, format).1.value.path == FileName(ParseType(o.RawType))
  {
    CodeTotal(o, Parsed(ParseType(o.RawType), p.MapResults + ParseAll(o.Map)), render);
  }

  // ---------------------------------------------------------------------------
  // The generator object

  class Generator {
    const options: Options
    var Type: TypeDef
    var MapResults: seq<TypeDef>

    function State(): Parsed
      reads this
    {
      Parsed(Type, MapResults)
    }

    constructor(options: Options)
      ensures this.options == options
      ensures State() == Parsed(NoType, [])
    {
      this.options := options;
      Type := NoType;
      MapResults := [];
    }

    /** `parseTypes`: set the main type, then append one parse per map token. */
    method ParseTypes()
      modifies this
      ensures Type == ParseType(options.RawType)
      ensures MapResults == old(MapResults) + ParseAll(options.Map)
    {
      Type := ParseType(options.RawType);
      var i := 0;
      while i < |options.Map|
        invariant 0 <= i <= |options.Map|
        invariant Type == ParseType(options.RawType)
        invariant MapResults == old(MapResults) + ParseAll(options.Map[..i])
      {
        ParseAllSnoc(options.Map, i);
        var t := ParseType(options.Map[i]);
        MapResults := MapResults + [t];
        i := i + 1;
      }
      assert options.Map[..i] == options.Map;
    }

    /** `generateCode`: run the steps in order into one buffer; the first error discards it. */
    method GenerateCode(render: Renderer) returns (r: Result<string, TypeParsing.Error>)
      ensures r == Code(options, State(), render)
    {
      var imports := CollectImports(State());
      var out := Emitter(options, State(), render, imports);
      var buf := "";
      var i := 0;
      while i < |Sections|
        invariant 0 <= i <= |Sections|
        invariant RunAll(Sections[..i], out) == Ok(buf)
      {
        assert Sections[..i + 1][..i] == Sections[..i];
        var step := out(Sections[i]);
        if step.Err? {
          RunAllSticky(Sections, out, i + 1);
          return Err(step.error);
        }
        buf := buf + step.value;
        i := i + 1;
      }
      assert Sections[..i] == Sections;
      return Ok(buf);
    }

    /** `Generate`: parse, generate, format and return the file to write, or the first error met. */
    method Generate(render: Renderer, format: Formatter) returns (r: Result<Current.OutputFile, TypeParsing.Error>)
      modifies this
      ensures (State(), r) == GenerateSpec(options, old(State()), render, format)
    {
      ParseTypes();
      var code := GenerateCode(render);
      if code.Err? {
        return Err(code.error);
      }
      var formatted := format(code.value);
      if formatted.Err? {
        return Err(formatted.error);
      }
      return Ok(Current.OutputFile(FileName(Type), formatted.value));
    }
  }
}

=== FILE: order.dfy ===
/**
 * Go's ordering of strings and `sort.Strings`. Go compares strings byte by
 * byte; UTF-8 preserves the order of code points, so comparing the
 * characters of a `seq<char>` gives the same order.
 */
module StringOrder {

  /** Go's `a < b` on strings: lexicographic, a proper prefix comes first. */
  predicate Less(a: string, b: string)
    decreases |a|
  {
    if a == [] then b != []
    else b != [] && (a[0] < b[0] || (a[0] == b[0] && Less(a[1..], b[1..])))
  }

  lemma {:induction false} LessIrreflexive(a: string)
    ensures !Less(a, a)
    decreases |a|
  {
    if a != [] {
      LessIrreflexive(a[1..]);
    }
  }

  lemma {:induction false} LessTransitive(a: string, b: string, c: string)
    requires Less(a, b) && Less(b, c)
    ensures Less(a, c)
    decreases |a|
  {
    if a != [] && a[0] == b[0] && b[0] == c[0] {
      LessTransitive(a[1..], b[1..], c[1..]);
    }
  }

  lemma {:induction false} LessTotal(a: string, b: string)
    ensures a == b || Less(a, b) || Less(b, a)
    decreases |a|
  {
    if a != [] && b != [] && a[0] == b[0] {
      LessTotal(a[1..], b[1..]);
      if a[1..] == b[1..] {
        assert a == [a[0]] + a[1..] && b == [b[0]] + b[1..];
      }
    }
  }

  lemma LessAsymmetric(a: string, b: string)
    requires Less(a, b)
    ensures !Less(b, a)
  {
    if Less(b, a) {
      LessTransitive(a, b, a);
      LessIrreflexive(a);
    }
  }

  function Elems(s: seq<string>): set<string> {
    set x | x in s
  }

  ghost predicate Distinct(s: seq<string>) {
    forall i, j :: 0 <= i < j < |s| ==> s[i] != s[j]
  }

  /** Strictly ascending: sorted and without duplicates. */
  ghost predicate StrictlySorted(s: seq<string>) {
    forall i, j :: 0 <= i < j < |s| ==> Less(s[i], s[j])
  }

  /** Inserts `x` before the first element that is not smaller than it. */
  function Insert(x: string, s: seq<string>): seq<string>
    decreases |s|
  {
    if s == [] || !Less(s[0], x) then [x] + s
    else [s[0]] + Insert(x, s[1..])
  }

  /** `sort.Strings`, as an insertion sort. */
  function Sort(s: seq<string>): seq<string>
    decreases |s|
  {
    if s == [] then [] else Insert(s[0], Sort(s[1..]))
  }

  lemma {:induction false} InsertElements(x: string, s: seq<string>)
    ensures multiset(Insert(x, s)) == multiset(s) + multiset{x}
    decreases |s|
  {
    if s != [] && Less(s[0], x) {
      InsertElements(x, s[1..]);
      assert s == [s[0]] + s[1..];
    }
  }

  /** Inserting a new element into a strictly ascending sequence keeps it strictly ascending. */
  lemma {:induction false} InsertStrict(x: string, s: seq<string>)
    requires StrictlySorted(s) && x !in s
    ensures StrictlySorted(Insert(x, s))
    decreases |s|
  {
    if s == [] || !Less(s[0], x) {
      if s != [] {
        LessTotal(x, s[0]);
        forall j | 0 <= j < |s|
          ensures Less(x, s[j])
        {
          if j > 0 {
            LessTransitive(x, s[0], s[j]);
          }
        }
      }
    } else {
      var r := Insert(x, s[1..]);
      InsertStrict(x, s[1..]);
      InsertElements(x, s[1..]);
      forall j | 0 <= j < |r|
        ensures Less(s[0], r[j])
      {
        assert r[j] in multiset(r);
        if r[j] != x {
          assert r[j] in multiset(s[1..]);
          var i :| 0 <= i < |s[1..]| && s[1..][i] == r[j];
          assert s[i + 1] == r[j];
        }
      }
    }
  }

  /** On a duplicate-free input, `Sort` yields a strictly ascending permutation of it. */
  lemma {:induction false} SortStrict(s: seq<string>)
    requires Distinct(s)
    ensures StrictlySorted(Sort(s)) && multiset(Sort(s)) == multiset(s)
    decreases |s|
  {
    if s != [] {
      var rest := s[1..];
      DistinctTail(s);
      var tail := Sort(rest);
      SortStrict(rest);
      assert s[0] !in multiset(tail) by {
        assert s[0] !in multiset(rest);
      }
      InsertStrict(s[0], tail);
      InsertElements(s[0], tail);
      assert multiset(s) == multiset{s[0]} + multiset(rest) by {
        assert s == [s[0]] + rest;
      }
    }
  }

  /** The tail of a duplicate-free sequence is duplicate-free and lacks the head. */
  lemma DistinctTail(s: seq<string>)
    requires Distinct(s) && s != []
    ensures Distinct(s[1..]) && s[0] !in s[1..]
  {
    var rest := s[1..];
    forall i, j | 0 <= i < j < |rest|
      ensures rest[i] != rest[j]
    {
      assert rest[i] == s[i + 1] && rest[j] == s[j + 1];
    }
    forall k | 0 <= k < |rest|
      ensures rest[k] != s[0]
    {
      assert rest[k] == s[k + 1];
    }
  }

  /** In a strictly ascending sequence the head does not occur in the tail. */
  lemma ElemsOfTail(s: seq<string>)
    requires StrictlySorted(s) && s != []
    ensures Elems(s[1..]) == Elems(s) - {s[0]}
  {
    forall j | 1 <= j < |s|
      ensures s[j] != s[0]
    {
      LessIrreflexive(s[0]);
    }
    assert s == [s[0]] + s[1..];
  }

  lemma ElemsEmpty(s: seq<string>)
    ensures Elems(s) == {} <==> s == []
  {
    if s != [] {
      assert s[0] in Elems(s);
    }
  }

  /** Two strictly ascending sequences with the same elements are equal. */
  lemma {:induction false} StrictlySortedUnique(a: seq<string>, b: seq<string>)
    requires StrictlySorted(a) && StrictlySorted(b) && Elems(a) == Elems(b)
    ensures a == b
    decreases |a|
  {
    ElemsEmpty(a);
    ElemsEmpty(b);
    if a != [] {
      assert a[0] in Elems(b);
      if a[0] != b[0] {
        assert b[0] in Elems(a);
        var i :| 0 <= i < |a| && a[i] == b[0];
        var j :| 0 <= j < |b| && b[j] == a[0];
        assert Less(a[0], a[i]) && Less(b[0], b[j]);
        LessAsymmetric(a[0], b[0]);
      }
      ElemsOfTail(a);
      ElemsOfTail(b);
      StrictlySortedUnique(a[1..], b[1..]);
      assert a == [a[0]] + a[1..] && b == [b[0]] + b[1..];
    }
  }

  /** `m` is the smallest element of `s`. */
  ghost predicate IsLeast(m: string, s: set<string>) {
    m in s && forall x :: x in s ==> !Less(x, m)
  }

  lemma {:induction false} LeastExists(s: set<string>)
    requires s != {}
    ensures exists m :: IsLeast(m, s)
    decreases |s|
  {
    var y :| y in s;
    if s == {y} {
      LessIrreflexive(y);
      assert IsLeast(y, s);
    } else {
      LeastExists(s - {y});
      var m :| IsLeast(m, s - {y});
      if Less(y, m) {
        forall x | x in s
          ensures !Less(x, y)
        {
          if x == y {
            LessIrreflexive(y);
          } else if Less(x, y) {
            LessTransitive(x, y, m);
          }
        }
        assert IsLeast(y, s);
      } else {
        assert IsLeast(m, s);
      }
    }
  }

  /** Putting the least element in front of an ascending listing of the others lists the whole set. */
  lemma LeastInFront(m: string, s: set<string>, rest: seq<string>)
    requires IsLeast(m, s) && StrictlySorted(rest) && Elems(rest) == s - {m}
    ensures StrictlySorted([m] + rest) && Elems([m] + rest) == s
  {
    var r := [m] + rest;
    forall x | x in rest
      ensures Less(m, x)
    {
      assert x in Elems(rest);
      LessTotal(m, x);
    }
    forall i, j | 0 <= i < j < |r|
      ensures Less(r[i], r[j])
    {
      assert r[j] == rest[j - 1];
      if i > 0 {
        assert r[i] == rest[i - 1];
      }
    }
    assert Elems(r) == {m} + Elems(rest);
  }

  /** The elements of a finite set of strings, listed in strictly ascending order. */
  ghost function SortedElems(s: set<string>): (r: seq<string>)
    ensures StrictlySorted(r) && Elems(r) == s
    decreases |s|
  {
    if s == {} then []
    else
      LeastExists(s);
      var m :| IsLeast(m, s);
      var rest := SortedElems(s - {m});
      LeastInFront(m, s, rest);
      [m] + rest
  }
}

=== FILE: pipeline.dfy ===
/**
 * The loop at the heart of `generateCode`: run a fixed list of steps, each
 * writing its text into one buffer, and abort on the first error with no
 * output at all.
 */
module Pipeline {
  import opened Results

  /** The buffer after running `steps` in order, or the error of the first step that fails. */
  function RunAll<S, E>(steps: seq<S>, out: S -> Result<string, E>): Result<string, E>
    decreases |steps|
  {
    if steps == [] then Ok("")
    else
      match RunAll(steps[..|steps| - 1], out)
      case Err(e) => Err(e)
      case Ok(buf) =>
        match out(steps[|steps| - 1])
        case Err(e) => Err(e)
        case Ok(text) => Ok(buf + text)
  }

  /** Running two step lists back to back: the buffers concatenate, and the first error wins. */
  function Then<E>(first: Result<string, E>, second: Result<string, E>): Result<string, E> {
    match first
    case Err(e) => Err(e)
    case Ok(a) =>
      match second
      case Err(e) => Err(e)
      case Ok(b) => Ok(a + b)
  }

  /**
   * Running `a + b` is running `a` and then `b`: on success the buffer is
   * the concatenation of both buffers, and an error in `a` hides `b`.
   */
  lemma {:induction false} RunAllAppend<S, E>(a: seq<S>, b: seq<S>, out: S -> Result<string, E>)
    ensures RunAll(a + b, out) == Then(RunAll(a, out), RunAll(b, out))
    decreases |b|
  {
    if b == [] {
      assert a + b == a;
      match RunAll(a, out)
      case Err(_) =>
      case Ok(x) => assert x + "" == x;
    } else {
      var n := |b| - 1;
      assert (a + b)[..|a + b| - 1] == a + b[..n];
      assert (a + b)[|a + b| - 1] == b[n];
      RunAllAppend(a, b[..n], out);
      match RunAll(a, out)
      case Err(_) =>
      case Ok(x) =>
        match RunAll(b[..n], out)
        case Err(_) =>
        case Ok(y) =>
          match out(b[n])
          case Err(_) =>
          case Ok(z) => assert (x + y) + z == x + (y + z);
    }
  }

  /** A single step writes exactly its own text. */
  lemma RunAllSingle<S, E>(s: S, out: S -> Result<string, E>)
    ensures RunAll([s], out) == out(s)
  {
    assert [s][..0] == [];
    match out(s)
    case Ok(text) => assert "" + text == text;
    case Err(_) =>
  }

  /** A successful run's buffer starts with the text of its first step. */
  lemma RunAllFirst<S, E>(steps: seq<S>, out: S -> Result<string, E>)
    requires |steps| >= 1 && RunAll(steps, out).Ok?
    ensures out(steps[0]).Ok?
    ensures var first := out(steps[0]).value;
      |first| <= |RunAll(steps, out).value| && RunAll(steps, out).value[..|first|] == first
  {
    var rest := steps[1..];
    assert steps == [steps[0]] + rest;
    RunAllAppend([steps[0]], rest, out);
    RunAllSingle(steps[0], out);
    var first := out(steps[0]).value;
    var tail := RunAll(rest, out).value;
    assert (first + tail)[..|first|] == first;
  }

  /** Once a prefix of the steps has failed, the whole run fails with the same error. */
  lemma {:induction false} RunAllSticky<S, E>(steps: seq<S>, out: S -> Result<string, E>, k: nat)
    requires k <= |steps| && RunAll(steps[..k], out).Err?
    ensures RunAll(steps, out) == RunAll(steps[..k], out)
    decreases |steps| - k
  {
    if k == |steps| {
      assert steps[..k] == steps;
    } else {
      RunAllAppend(steps[..k], steps[k..], out);
      assert steps[..k] + steps[k..] == steps;
    }
  }

  /** The run succeeds exactly when every step succeeds. */
  lemma {:induction false} RunAllOk<S, E>(steps: seq<S>, out: S -> Result<string, E>)
    ensures RunAll(steps, out).Ok? <==> forall k :: 0 <= k < |steps| ==> out(steps[k]).Ok?
    decreases |steps|
  {
    if steps != [] {
      var n := |steps| - 1;
      RunAllOk(steps[..n], out);
      assert forall k :: 0 <= k < n ==> steps[..n][k] == steps[k];
    }
  }

  /** When step `k` is the first to fail, the run fails with its error. */
  lemma FirstErrorWins<S, E>(steps: seq<S>, out: S -> Result<string, E>, k: nat)
    requires k < |steps| && out(steps[k]).Err?
    requires forall j :: 0 <= j < k ==> out(steps[j]).Ok?
    ensures RunAll(steps, out) == Err(out(steps[k]).error)
  {
    RunAllOk(steps[..k], out);
    assert steps[..k + 1][..k] == steps[..k];
    RunAllSticky(steps, out, k + 1);
  }

  /** Runs whose steps write the same texts produce the same result. */
  lemma {:induction false} RunAllCongruent<S, E>(steps: seq<S>, out: S -> Result<string, E>, out2: S -> Result<string, E>)
    requires forall k :: 0 <= k < |steps| ==> out(steps[k]) == out2(steps[k])
    ensures RunAll(steps, out) == RunAll(steps, out2)
    decreases |steps|
  {
    if steps != [] {
      var n := |steps| - 1;
      assert forall k :: 0 <= k < n ==> steps[..n][k] == steps[k];
      RunAllCongruent(steps[..n], out, out2);
    }
  }
}

=== FILE: plain_iter.dfy ===
/**
 * The iterator the generator emits for a plain type, as in
 * examples/float64_iter.go, over any element type `T`: none of its
 * operations looks inside an element. A Go slice is a `seq<T>`; the
 * callbacks are pure functions; `interface{}` is `Dynamic<T>`.
 */
module PlainIter {
  import opened Results

  /** A value of Go's `interface{}` as far as the conversions look at it. */
  datatype Dynamic<T> = OfElem(elem: T) | OfInt(n: int) | OfOther

  /** The errors of `Iter` and `ToInt`, with the texts of the `float64` instance. */
  const ErrToElem := "cannot convert Float64IterMapResult to []float64"
  const ErrToInt := "cannot convert Float64IterMapResult to []int"

  /** Every element satisfies `fn`. */
  predicate Every<T>(items: seq<T>, fn: T -> bool) {
    forall k :: 0 <= k < |items| ==> fn(items[k])
  }

  /** Some element satisfies `fn`. */
  predicate Any<T>(items: seq<T>, fn: T -> bool) {
    exists k :: 0 <= k < |items| && fn(items[k])
  }

  // ---------------------------------------------------------------------------
  // Map and the conversions back

  /** `Map`: the callback applied to each position and element, in order. */
  method Map<T>(items: seq<T>, fn: (nat, T) -> Dynamic<T>) returns (result: seq<Dynamic<T>>)
    ensures |result| == |items|
    ensures forall n :: 0 <= n < |items| ==> result[n] == fn(n, items[n])
  {
    result := [];
    for n := 0 to |items|
      invariant |result| == n
      invariant forall k :: 0 <= k < n ==> result[k] == fn(k, items[k])
    {
      result := result + [fn(n, items[n])];
    }
  }

  /** `Iter`: succeeds exactly when every value holds an element, and then yields those elements. */
  method Iter<T>(r: seq<Dynamic<T>>) returns (result: Result<seq<T>, string>)
    ensures result.Ok? <==> forall k :: 0 <= k < |r| ==> r[k].OfElem?
    ensures result.Ok? ==> |result.value| == |r| && forall k :: 0 <= k < |r| ==> result.value[k] == r[k].elem
    ensures result.Err? ==> result.error == ErrToElem
  {
    var items: seq<T> := [];
    for j := 0 to |r|
      invariant |items| == j
      invariant forall k :: 0 <= k < j ==> r[k].OfElem? && items[k] == r[k].elem
    {
      if !r[j].OfElem? {
        return Err(ErrToElem);
      }
      items := items + [r[j].elem];
    }
    return Ok(items);
  }

  /** `ToInt`: succeeds exactly when every value holds an `int`, and then yields those integers. */
  method ToInt<T>(r: seq<Dynamic<T>>) returns (result: Result<seq<int>, string>)
    ensures result.Ok? <==> forall k :: 0 <= k < |r| ==> r[k].OfInt?
    ensures result.Ok? ==> |result.value| == |r| && forall k :: 0 <= k < |r| ==> result.value[k] == r[k].n
    ensures result.Err? ==> result.error == ErrToInt
  {
    var ints: seq<int> := [];
    for j := 0 to |r|
      invariant |ints| == j
      invariant forall k :: 0 <= k < j ==> r[k].OfInt? && ints[k] == r[k].n
    {
      if !r[j].OfInt? {
        return Err(ErrToInt);
      }
      ints := ints + [r[j].n];
    }
    return Ok(ints);
  }

  // ---------------------------------------------------------------------------
  // Filter

  /** The elements that satisfy `fn`, in their order. */
  function Filtered<T>(items: seq<T>, fn: T -> bool): seq<T>
    decreases |items|
  {
    if items == [] then []
    else
      var last := items[|items| - 1];
      Filtered(items[..|items| - 1], fn) + (if fn(last) then [last] else [])
  }

  /** `Filter`. */
  method Filter<T>(items: seq<T>, fn: T -> bool) returns (result: seq<T>)
    ensures result == Filtered(items, fn)
  {
    result := [];
    for j := 0 to |items|
      invariant result == Filtered(items[..j], fn)
    {
      assert items[..j + 1][..j] == items[..j];
      if fn(items[j]) {
        result := result + [items[j]];
      }
    }
    assert items[..|items|] == items;
  }

  /** Filtering a concatenation filters each part. */
  lemma {:induction false} FilteredAppend<T>(a: seq<T>, b: seq<T>, fn: T -> bool)
    ensures Filtered(a + b, fn) == Filtered(a, fn) + Filtered(b, fn)
    decreases |b|
  {
    if b == [] {
      assert a + b == a;
    } else {
      var n := |b| - 1;
      assert (a + b)[..|a + b| - 1] == a + b[..n];
      FilteredAppend(a, b[..n], fn);
    }
  }

  /** Each value occurs in the result as often as in the input when it satisfies `fn`, and never otherwise. */
  lemma {:induction false} FilteredCount<T>(items: seq<T>, fn: T -> bool, x: T)
    ensures multiset(Filtered(items, fn))[x] == if fn(x) then multiset(items)[x] else 0
    decreases |items|
  {
    if items != [] {
      var n := |items| - 1;
      FilteredCount(items[..n], fn, x);
      assert items == items[..n] + [items[n]];
    }
  }

  /** Everything kept satisfies `fn`. */
  lemma {:induction false} FilteredEvery<T>(items: seq<T>, fn: T -> bool)
    ensures Every(Filtered(items, fn), fn)
    decreases |items|
  {
    if items != [] {
      FilteredEvery(items[..|items| - 1], fn);
    }
  }

  /** Nothing is kept exactly when no element satisfies `fn`. */
  lemma {:induction false} FilteredEmpty<T>(items: seq<T>, fn: T -> bool)
    ensures Filtered(items, fn) == [] <==> !Any(items, fn)
    decreases |items|
  {
    if items != [] {
      var n := |items| - 1;
      var init := items[..n];
      FilteredEmpty(init, fn);
      assert Filtered(items, fn) == Filtered(init, fn) + (if fn(items[n]) then [items[n]] else []);
      assert Any(init, fn) ==> Any(items, fn) by {
        if Any(init, fn) {
          var k :| 0 <= k < |init| && fn(init[k]);
          assert items[k] == init[k];
        }
      }
      assert Any(items, fn) ==> Any(init, fn) || fn(items[n]) by {
        if Any(items, fn) {
          var k :| 0 <= k < |items| && fn(items[k]);
          if k < n {
            assert init[k] == items[k];
          }
        }
      }
    }
  }

  /** Filtering twice with the same test changes nothing. */
  lemma {:induction false} FilteredIdempotent<T>(items: seq<T>, fn: T -> bool)
    ensures Filtered(Filtered(items, fn), fn) == Filtered(items, fn)
    decreases |items|
  {
    if items != [] {
      var n := |items| - 1;
      var last := items[n];
      FilteredIdempotent(items[..n], fn);
      FilteredAppend(Filtered(items[..n], fn), if fn(last) then [last] else [], fn);
      assert [last][..0] == [];
    }
  }

  /** The filter test: odd, even, odd, even keeps the first and the third. */
  lemma FilteredExample<T>(a: T, b: T, c: T, d: T, fn: T -> bool)
    requires fn(a) && !fn(b) && fn(c) && !fn(d)
    ensures Filtered([a, b, c, d], fn) == [a, c]
  {
    assert [a][..0] == [];
    assert Filtered([a], fn) == [a];
    assert [a, b][..1] == [a];
    assert Filtered([a, b], fn) == [a];
    assert [a, b, c][..2] == [a, b];
    assert Filtered([a, b, c], fn) == [a, c];
    assert [a, b, c, d][..3] == [a, b, c];
  }

  // ---------------------------------------------------------------------------
  // All, Some, Find

  /** `All`: stops at the first element that fails. */
  method All<T>(items: seq<T>, fn: T -> bool) returns (b: bool)
    ensures b <==> Every(items, fn)
  {
    for j := 0 to |items|
      invariant Every(items[..j], fn)
    {
      if !fn(items[j]) {
        return false;
      }
      assert items[..j + 1] == items[..j] + [items[j]];
    }
    assert items[..|items|] == items;
    return true;
  }

  /** `Some`: stops at the first element that passes. */
  method Some<T>(items: seq<T>, fn: T -> bool) returns (b: bool)
    ensures b <==> Any(items, fn)
  {
    for j := 0 to |items|
      invariant !Any(items[..j], fn)
    {
      if fn(items[j]) {
        assert items[j] == items[..j + 1][j];
        return true;
      }
      assert items[..j + 1] == items[..j] + [items[j]];
    }
    assert items[..|items|] == items;
    return false;
  }

  /**
   * `Find`: the first element that satisfies `fn` and its index, or the
   * zero value and -1 when there is none.
   */
  method Find<T>(items: seq<T>, fn: T -> bool, zero: T) returns (item: T, index: int)
    ensures index == -1 <==> !Any(items, fn)
    ensures index == -1 ==> item == zero
    ensures index != -1 ==>
      0 <= index < |items| && fn(items[index]) && item == items[index] &&
      forall k :: 0 <= k < index ==> !fn(items[k])
  {
    for j := 0 to |items|
      invariant forall k :: 0 <= k < j ==> !fn(items[k])
    {
      if fn(items[j]) {
        return items[j], j;
      }
    }
    return zero, -1;
  }

  /** The element `Find` returns is the first one `Filter` keeps. */
  lemma FindIsFirstFiltered<T>(items: seq<T>, fn: T -> bool, i: nat)
    requires i < |items| && fn(items[i]) && forall k :: 0 <= k < i ==> !fn(items[k])
    ensures Filtered(items, fn) != [] && Filtered(items, fn)[0] == items[i]
  {
    var x := items[i];
    var front := items[..i];
    var back := items[i + 1..];
    assert items == front + ([x] + back);
    assert !Any(front, fn) by {
      forall k | 0 <= k < |front|
        ensures !fn(front[k])
      {
        assert front[k] == items[k];
      }
    }
    FilteredEmpty(front, fn);
    assert [x][..0] == [];
    assert Filtered([x], fn) == [x];
    FilteredAppend([x], back, fn);
    FilteredAppend(front, [x] + back, fn);
    assert Filtered(items, fn) == [x] + Filtered(back, fn);
  }

  // ---------------------------------------------------------------------------
  // Concat and Reverse

  /** `Concat`: the elements of `i` followed by those of `i2`. */
  method Concat<T>(i: seq<T>, i2: seq<T>) returns (r: seq<T>)
    ensures |r| == |i| + |i2| && r[..|i|] == i && r[|i|..] == i2
  {
    r := i + i2;
  }

  /** The elements in the opposite order. */
  function Reversed<T>(s: seq<T>): (r: seq<T>)
    ensures |r| == |s|
    ensures forall k :: 0 <= k < |s| ==> r[k] == s[|s| - 1 - k]
    decreases |s|
  {
    if s == [] then [] else Reversed(s[1..]) + [s[0]]
  }

  /** `Reverse`: walks the input from the back. */
  method Reverse<T>(items: seq<T>) returns (result: seq<T>)
    ensures result == Reversed(items)
  {
    result := [];
    var j := |items| - 1;
    while j >= 0
      invariant -1 <= j < |items|
      invariant result == Reversed(items[j + 1..])
    {
      assert items[j..][1..] == items[j + 1..];
      result := result + [items[j]];
      j := j - 1;
    }
  }

  /** Reversing twice gives back the input. */
  lemma ReversedReversed<T>(s: seq<T>)
    ensures Reversed(Reversed(s)) == s
  {
  }

  /** Reversing a concatenation reverses the parts and swaps them. */
  lemma ReversedAppend<T>(a: seq<T>, b: seq<T>)
    ensures Reversed(a + b) == Reversed(b) + Reversed(a)
  {
  }

  // ---------------------------------------------------------------------------
  // Splice

  /** Go's `int`, 64 bits wide on the platforms the generator targets. */
  const MinInt: int := -0x8000_0000_0000_0000
  const MaxInt: int := 0x7fff_ffff_ffff_ffff
  type Int = x: int | MinInt <= x <= MaxInt

  /** Go's `+` on `int`: the mathematical sum, wrapped around into the 64-bit range. */
  function AddInt(a: Int, b: Int): (r: Int)
    ensures MinInt <= a + b <= MaxInt ==> r == a + b
    ensures a + b > MaxInt ==> r < 0
    ensures (r - (a + b)) % 0x1_0000_0000_0000_0000 == 0
  {
    if a + b > MaxInt then a + b - 0x1_0000_0000_0000_0000
    else if a + b < MinInt then a + b + 0x1_0000_0000_0000_0000
    else a + b
  }

  /**
   * What `Splice` returns: the input when `start` is negative or not
   * before the last position; otherwise the part before `start`, followed,
   * when `numDelete` is not negative and the wrapped `start + numDelete` is
   * below the length, by the part from there on. `None` is the run-time
   * panic of slicing from a negative position, which is where a sum that
   * wrapped around lands.
   */
  function Spliced<T>(items: seq<T>, start: Int, numDelete: Int): Option<seq<T>> {
    if start >= |items| - 1 || start < 0 then Option.Some(items)
    else if numDelete > -1 && AddInt(numDelete, start) < |items| then
      var from := AddInt(numDelete, start);
      if from < 0 then None else Option.Some(items[..start] + items[from..])
    else Option.Some(items[..start])
  }

  /** `Splice`; `None` when the Go code panics. */
  method Splice<T>(items: seq<T>, start: Int, numDelete: Int) returns (result: Option<seq<T>>)
    ensures result == Spliced(items, start, numDelete)
  {
    var length := |items|;
    if start >= length - 1 || start < 0 {
      return Option.Some(items);
    }
    var kept := items[..start];
    if numDelete > -1 && AddInt(numDelete, start) < length {
      var from := AddInt(numDelete, start);
      if from < 0 {
        return None;
      }
      kept := kept + items[from..];
    }
    return Option.Some(kept);
  }

  /** A start below 0, at the last position or past the end returns the whole slice, whatever `numDelete` asks for. */
  lemma SplicedOutside<T>(items: seq<T>, start: Int, numDelete: Int)
    requires start < 0 || start >= |items| - 1
    ensures Spliced(items, start, numDelete) == Option.Some(items)
  {
  }

  /** A start at the last position removes nothing: the instance of `SplicedOutside` the comment on `Splice` does not mention. */
  lemma SplicedAtLast<T>(items: seq<T>, numDelete: Int)
    requires 0 < |items| <= MaxInt
    ensures Spliced(items, |items| - 1, numDelete) == Option.Some(items)
  {
    SplicedOutside(items, |items| - 1, numDelete);
  }

  /**
   * A start before the last position and a count that stays inside remove
   * exactly `numDelete` elements at `start` and keep the rest in order.
   */
  lemma SplicedRemoves<T>(items: seq<T>, start: Int, numDelete: Int)
    requires |items| <= MaxInt
    requires 0 <= start < |items| - 1 && 0 <= numDelete && start + numDelete < |items|
    ensures Spliced(items, start, numDelete).Some?
    ensures var r := Spliced(items, start, numDelete).value;
      |r| == |items| - numDelete &&
      (forall k :: 0 <= k < start ==> r[k] == items[k]) &&
      (forall k :: start <= k < |r| ==> r[k] == items[k + numDelete])
  {
  }

  /** A negative count, or one that runs past the end without wrapping around, keeps only the part before `start`. */
  lemma SplicedTruncates<T>(items: seq<T>, start: Int, numDelete: Int)
    requires 0 <= start < |items| - 1
    requires numDelete < 0 || |items| <= start + numDelete <= MaxInt
    ensures Spliced(items, start, numDelete) == Option.Some(items[..start])
  {
  }

  /**
   * A count so large that `start + numDelete` wraps around makes the sum
   * negative, so it passes the length test and the slicing panics, where
   * the comment on `Splice` leads one to expect the part before `start`.
   */
  lemma SplicedWrapPanics<T>(items: seq<T>, start: Int, numDelete: Int)
    requires 0 <= start < |items| - 1 && numDelete > MaxInt - start
    ensures Spliced(items, start, numDelete) == None
  {
  }

  /** The input the wrap-around shows on: one past the first of three elements, with the largest count. */
  lemma SplicedWrapExample<T>(a: T, b: T, c: T)
    ensures Spliced([a, b, c], 1, MaxInt) == None
  {
    SplicedWrapPanics([a, b, c], 1, MaxInt);
  }

  /** The splice test on a three-element slice. */
  lemma SplicedExamples<T>(a: T, b: T, c: T)
    ensures Spliced([a, b, c], -1, 1) == Option.Some([a, b, c])
    ensures Spliced([a, b, c], 0, 1) == Option.Some([b, c])
    ensures Spliced([a, b, c], 0, 4) == Option.Some([])
    ensures Spliced([a, b, c], 1, 4) == Option.Some([a])
  {
    assert AddInt(1, 0) == 1;
    assert [a, b, c][..0] + [a, b, c][1..] == [b, c];
    SplicedTruncates([a, b, c], 0, 4);
    SplicedTruncates([a, b, c], 1, 4);
    assert [a, b, c][..1] == [a];
  }

  // ---------------------------------------------------------------------------
  // ReduceInt

  /** The accumulator after feeding every element, with its index, to `fn`, starting from `initial`. */
  function Fold<T>(items: seq<T>, fn: (T, int, int) -> int, initial: int): int
    decreases |items|
  {
    if items == [] then initial
    else
      var n := |items| - 1;
      fn(items[n], Fold(items[..n], fn, initial), n)
  }

  /** `ReduceInt`. */
  method ReduceInt<T>(items: seq<T>, fn: (T, int, int) -> int, initial: int) returns (result: int)
    ensures result == Fold(items, fn, initial)
  {
    result := initial;
    for idx := 0 to |items|
      invariant result == Fold(items[..idx], fn, initial)
    {
      assert items[..idx + 1][..idx] == items[..idx];
      result := fn(items[idx], result, idx);
    }
    assert items[..|items|] == items;
  }

  /** `fn` with every index shifted by `d`. */
  function Shift<T>(fn: (T, int, int) -> int, d: int): (T, int, int) -> int {
    (x, acc, idx) => fn(x, acc, idx + d)
  }

  /** Folding a concatenation folds the second part from where the first left off, its indices shifted. */
  lemma {:induction false} FoldAppend<T>(a: seq<T>, b: seq<T>, fn: (T, int, int) -> int, initial: int)
    ensures Fold(a + b, fn, initial) == Fold(b, Shift(fn, |a|), Fold(a, fn, initial))
    decreases |b|
  {
    if b == [] {
      assert a + b == a;
    } else {
      var n := |b| - 1;
      assert (a + b)[..|a + b| - 1] == a + b[..n];
      FoldAppend(a, b[..n], fn, initial);
    }
  }

  /** Counting: adding one per element yields the initial value plus the length. */
  lemma {:induction false} FoldCounts<T>(items: seq<T>, initial: int)
    ensures Fold(items, (x: T, acc: int, idx: int) => acc + 1, initial) == initial + |items|
    decreases |items|
  {
    if items != [] {
      FoldCounts(items[..|items| - 1], initial);
    }
  }

  /** The reduce test: summing a value per element, from zero. */
  lemma FoldSums<T>(a: T, b: T, c: T, g: T -> int, fn: (T, int, int) -> int)
    requires forall x, acc, idx :: fn(x, acc, idx) == acc + g(x)
    ensures Fold([a, b, c], fn, 0) == g(a) + g(b) + g(c)
  {
    assert [a][..0] == [];
    assert Fold([a], fn, 0) == g(a);
    assert [a, b][..1] == [a];
    assert Fold([a, b], fn, 0) == g(a) + g(b);
    assert [a, b, c][..2] == [a, b];
  }
}

=== FILE: results.dfy ===
/** Failure-carrying values: Go's `(value, error)` pairs and its optional results. */
module Results {

  datatype Option<+T> = None | Some(value: T)

  datatype Result<+T, +E> = Ok(value: T) | Err(error: E)
}

=== FILE: text.dfy ===
/**
 * The parts of Go's `strings` package that the generator relies on, over
 * `seq<char>`: prefix and substring tests, splitting on a one-character
 * separator, title-casing and lower-casing.
 */
module Text {

  /** `strings.HasPrefix`. */
  predicate HasPrefix(s: string, prefix: string) {
    |prefix| <= |s| && s[..|prefix|] == prefix
  }

  /** `strings.Contains`: `sub` starts at the front of `s` or somewhere after it. */
  predicate Contains(s: string, sub: string)
    decreases |s|
  {
    HasPrefix(s, sub) || (|s| > 0 && Contains(s[1..], sub))
  }

  /** `sub` occurs in `s` starting at position `i`. */
  predicate OccursAt(s: string, sub: string, i: int) {
    0 <= i && i + |sub| <= |s| && s[i..i + |sub|] == sub
  }

  /** `Contains` holds exactly when `sub` occurs at some position of `s`. */
  lemma {:induction false} ContainsAt(s: string, sub: string)
    ensures Contains(s, sub) <==> exists i :: OccursAt(s, sub, i)
    decreases |s|
  {
    if Contains(s, sub) {
      if HasPrefix(s, sub) {
        assert OccursAt(s, sub, 0);
      } else {
        ContainsAt(s[1..], sub);
        var i :| OccursAt(s[1..], sub, i);
        assert s[i + 1..i + 1 + |sub|] == s[1..][i..i + |sub|];
        assert OccursAt(s, sub, i + 1);
      }
    }
    if exists i :: OccursAt(s, sub, i) {
      var i :| OccursAt(s, sub, i);
      if i == 0 {
        assert HasPrefix(s, sub);
      } else {
        assert s[1..][i - 1..i - 1 + |sub|] == s[i..i + |sub|];
        assert OccursAt(s[1..], sub, i - 1);
        ContainsAt(s[1..], sub);
      }
    }
  }

  /** The position of the first `c` in `s`, or `|s|` when there is none. */
  function FirstIndex(s: string, c: char): (k: nat)
    ensures k <= |s|
    ensures k < |s| ==> s[k] == c
    decreases |s|
  {
    if s == [] || s[0] == c then 0 else 1 + FirstIndex(s[1..], c)
  }

  /** `c` occurs in `s` exactly when its first index is inside `s`; no `c` precedes it. */
  lemma {:induction false} FirstIndexFound(s: string, c: char)
    ensures FirstIndex(s, c) < |s| <==> c in s
    ensures c !in s[..FirstIndex(s, c)]
    decreases |s|
  {
    if s != [] && s[0] != c {
      FirstIndexFound(s[1..], c);
      assert s[..FirstIndex(s, c)] == [s[0]] + s[1..][..FirstIndex(s[1..], c)];
    }
  }

  /** A position holding `c` with no `c` before it is the first one. */
  lemma FirstIndexIsFirst(s: string, c: char, i: nat)
    requires i < |s| && s[i] == c && c !in s[..i]
    ensures FirstIndex(s, c) == i
  {
    FirstIndexFound(s, c);
  }

  /**
   * `strings.Split` with a one-character separator: the pieces of `s`
   * between the occurrences of `sep`, in order.
   */
  function Split(s: string, sep: char): (parts: seq<string>)
    ensures |parts| >= 1
    decreases |s|
  {
    var k := FirstIndex(s, sep);
    if k < |s| then [s[..k]] + Split(s[k + 1..], sep) else [s]
  }

  /** There are several pieces exactly when the separator occurs; no piece contains it. */
  lemma {:induction false} SplitPieces(s: string, sep: char)
    ensures sep in s <==> |Split(s, sep)| >= 2
    ensures forall k :: 0 <= k < |Split(s, sep)| ==> sep !in Split(s, sep)[k]
    decreases |s|
  {
    FirstIndexFound(s, sep);
    var k := FirstIndex(s, sep);
    if k < |s| {
      SplitPieces(s[k + 1..], sep);
    }
  }

  /** `strings.Join` with a one-character separator. */
  function Join(parts: seq<string>, sep: char): string
    requires |parts| >= 1
  {
    if |parts| == 1 then parts[0] else parts[0] + [sep] + Join(parts[1..], sep)
  }

  /** Joining the pieces back with the separator gives the original string. */
  lemma {:induction false} SplitThenJoin(s: string, sep: char)
    ensures Join(Split(s, sep), sep) == s
    decreases |s|
  {
    var k := FirstIndex(s, sep);
    if k < |s| {
      var rest := Split(s[k + 1..], sep);
      var parts := Split(s, sep);
      assert parts == [s[..k]] + rest;
      assert parts[0] == s[..k] && parts[1..] == rest;
      SplitThenJoin(s[k + 1..], sep);
      assert Join(parts, sep) == s[..k] + [sep] + Join(rest, sep);
      assert s == s[..k] + [sep] + s[k + 1..];
    }
  }

  /** Pieces free of the separator are recovered by splitting their join. */
  lemma {:induction false} JoinThenSplit(parts: seq<string>, sep: char)
    requires |parts| >= 1
    requires forall k :: 0 <= k < |parts| ==> sep !in parts[k]
    ensures Split(Join(parts, sep), sep) == parts
    decreases |parts|
  {
    if |parts| > 1 {
      var s := Join(parts, sep);
      var n := |parts[0]|;
      assert s[n] == sep;
      assert s[..n] == parts[0];
      FirstIndexIsFirst(s, sep, n);
      assert s[n + 1..] == Join(parts[1..], sep);
      JoinThenSplit(parts[1..], sep);
    } else {
      assert sep !in parts[0];
    }
  }

  /**
   * The first piece is a separator-free prefix of `s` that is either all of
   * `s` or followed by the separator; the second piece is the first piece of
   * what follows that separator.
   */
  lemma SplitHead(s: string, sep: char)
    ensures var h := Split(s, sep)[0];
      HasPrefix(s, h) && sep !in h && (|h| == |s| || s[|h|] == sep)
    ensures sep in s ==>
      var h := Split(s, sep)[0];
      |h| < |s| && Split(s, sep)[1] == Split(s[|h| + 1..], sep)[0]
  {
    FirstIndexFound(s, sep);
    var k := FirstIndex(s, sep);
    var p := Split(s, sep);
    if k < |s| {
      assert p == [s[..k]] + Split(s[k + 1..], sep);
    } else {
      assert p == [s];
    }
    assert p[0] == s[..k];
  }

  /** `last` is a separator-free suffix of `s` that is all of `s` or preceded by the separator. */
  predicate IsLastPiece(s: string, last: string, sep: char) {
    sep !in last && |last| <= |s| && s[|s| - |last|..] == last &&
    (|last| == |s| || s[|s| - |last| - 1] == sep)
  }

  /** In a string without the separator the last piece is the whole string. */
  lemma LastPieceWhole(s: string, last: string, sep: char)
    requires IsLastPiece(s, last, sep) && sep !in s
    ensures last == s
  {
    forall i | 0 <= i < |s|
      ensures s[i] != sep
    {
    }
    assert s[|s| - |last|..] == s;
  }

  /** A last piece of what follows a separator is a last piece of the whole. */
  lemma LastPieceAfter(s: string, k: nat, last: string, sep: char)
    requires k < |s| && s[k] == sep && IsLastPiece(s[k + 1..], last, sep)
    ensures IsLastPiece(s, last, sep)
  {
    var tail := s[k + 1..];
    assert s[|s| - |last|..] == tail[|tail| - |last|..];
    if |last| < |tail| {
      assert s[|s| - |last| - 1] == tail[|tail| - |last| - 1];
    }
  }

  /** The last piece is the separator-free suffix that follows the last separator. */
  lemma {:induction false} SplitLast(s: string, sep: char)
    ensures IsLastPiece(s, Split(s, sep)[|Split(s, sep)| - 1], sep)
    decreases |s|
  {
    FirstIndexFound(s, sep);
    var k := FirstIndex(s, sep);
    if k < |s| {
      var tparts := Split(s[k + 1..], sep);
      SplitLast(s[k + 1..], sep);
      assert Split(s, sep) == [s[..k]] + tparts;
      LastPieceAfter(s, k, tparts[|tparts| - 1], sep);
    }
  }

  /** A string without the separator is a single piece. */
  lemma SplitNoSep(s: string, sep: char)
    requires sep !in s
    ensures Split(s, sep) == [s]
  {
  }

  /** A separator-free head followed by the separator is the first piece; the rest is split on. */
  lemma SplitAfterFirst(a: string, sep: char, rest: string)
    requires sep !in a
    ensures Split(a + [sep] + rest, sep) == [a] + Split(rest, sep)
  {
    var s := a + [sep] + rest;
    assert s[..|a|] == a;
    FirstIndexIsFirst(s, sep, |a|);
    assert s[|a| + 1..] == rest;
  }

  /**
   * The first two pieces of a separator-free head, the separator, a
   * separator-free second word and anything from a further separator on.
   */
  lemma SplitFirstTwo(a: string, b: string, rest: string, sep: char)
    requires sep !in a && sep !in b
    requires rest == [] || rest[0] == sep
    ensures |Split(a + [sep] + b + rest, sep)| >= 2
    ensures Split(a + [sep] + b + rest, sep)[0] == a && Split(a + [sep] + b + rest, sep)[1] == b
  {
    var tail := b + rest;
    assert a + [sep] + b + rest == a + [sep] + tail;
    SplitAfterFirst(a, sep, tail);
    if rest == [] {
      assert tail == b;
      SplitNoSep(b, sep);
    } else {
      assert tail == b + [sep] + rest[1..];
      SplitAfterFirst(b, sep, rest[1..]);
    }
  }

  /** A prefix, the separator after it, and a prefix of what follows form a prefix. */
  lemma PrefixAfterSeparator(s: string, h: string, sep: char, h2: string)
    requires HasPrefix(s, h) && |h| < |s| && s[|h|] == sep && HasPrefix(s[|h| + 1..], h2)
    ensures HasPrefix(s, h + [sep] + h2)
    ensures |h| + 1 + |h2| < |s| ==> s[|h| + 1 + |h2|] == s[|h| + 1..][|h2|]
  {
    var n := |h| + 1 + |h2|;
    var t := s[|h| + 1..];
    var joined := h + [sep] + h2;
    assert |joined| == n <= |s|;
    forall i | 0 <= i < n
      ensures s[i] == joined[i]
    {
      if i < |h| {
        assert s[..|h|][i] == h[i];
      } else if i > |h| {
        assert t[..|h2|][i - |h| - 1] == h2[i - |h| - 1];
      }
    }
    assert s[..n] == joined;
  }

  /**
   * When the separator occurs, the first two pieces and the separator
   * between them form a prefix, followed by the end or by the separator.
   */
  lemma SplitFirstTwoOf(s: string, sep: char)
    requires sep in s
    ensures var p := Split(s, sep);
      |p| >= 2 && sep !in p[0] && sep !in p[1] && HasPrefix(s, p[0] + [sep] + p[1]) &&
      (|p[0]| + 1 + |p[1]| == |s| || s[|p[0]| + 1 + |p[1]|] == sep)
  {
    var p := Split(s, sep);
    SplitPieces(s, sep);
    SplitHead(s, sep);
    var h := p[0];
    var t := s[|h| + 1..];
    SplitHead(t, sep);
    var h2 := Split(t, sep)[0];
    assert p[1] == h2;
    PrefixAfterSeparator(s, h, sep, h2);
  }

  /** Searching for a one-character string is testing membership. */
  lemma ContainsChar(s: string, c: char)
    ensures Contains(s, [c]) <==> c in s
  {
    ContainsAt(s, [c]);
    if c in s {
      var i :| 0 <= i < |s| && s[i] == c;
      assert OccursAt(s, [c], i);
    }
    if Contains(s, [c]) {
      var i :| OccursAt(s, [c], i);
      assert s[i] == s[i..i + 1][0];
    }
  }

  predicate IsAsciiLetter(c: char) {
    'a' <= c <= 'z' || 'A' <= c <= 'Z'
  }

  predicate IsDigit(c: char) {
    '0' <= c <= '9'
  }

  /**
   * The separator test behind `strings.Title`, ASCII rule: every ASCII
   * character except letters, digits and `_` separates words.
   */
  predicate IsSeparator(c: char) {
    c as int <= 0x7F && !(IsAsciiLetter(c) || IsDigit(c) || c == '_')
  }

  /** ASCII upper-casing; everything else is left as it is. */
  function ToUpperChar(c: char): char {
    if 'a' <= c <= 'z' then (c as int - 32) as char else c
  }

  /** ASCII lower-casing; everything else is left as it is. */
  function ToLowerChar(c: char): char {
    if 'A' <= c <= 'Z' then (c as int + 32) as char else c
  }

  /**
   * `strings.Title` with the previous character given: a character is
   * upper-cased exactly when the character before it separates words.
   */
  function TitleAfter(prev: char, s: string): (r: string)
    ensures |r| == |s|
    decreases |s|
  {
    if s == [] then []
    else [if IsSeparator(prev) then ToUpperChar(s[0]) else s[0]] + TitleAfter(s[0], s[1..])
  }

  /** `strings.Title`: the first character and every character after a word separator are upper-cased. */
  function Title(s: string): (r: string)
    ensures |r| == |s|
  {
    TitleAfter(' ', s)
  }

  lemma {:induction false} TitleAfterAt(prev: char, s: string)
    ensures forall k :: 0 <= k < |s| ==>
      TitleAfter(prev, s)[k] == if IsSeparator(if k == 0 then prev else s[k - 1]) then ToUpperChar(s[k]) else s[k]
    decreases |s|
  {
    if s != [] {
      TitleAfterAt(s[0], s[1..]);
      var r := TitleAfter(prev, s);
      assert r == [r[0]] + TitleAfter(s[0], s[1..]);
      forall k | 1 <= k < |s|
        ensures r[k] == TitleAfter(s[0], s[1..])[k - 1]
      {
      }
    }
  }

  /**
   * Character by character: position `k` of `Title(s)` is `s[k]` upper-cased
   * when `k` is 0 or `s[k - 1]` separates words, and `s[k]` otherwise.
   */
  lemma TitleAt(s: string)
    ensures forall k :: 0 <= k < |s| ==>
      Title(s)[k] == if k == 0 || IsSeparator(s[k - 1]) then ToUpperChar(s[k]) else s[k]
  {
    TitleAfterAt(' ', s);
    assert IsSeparator(' ');
    assert Title(s) == TitleAfter(' ', s);
  }

  /** A word without separators gets only its first character upper-cased. */
  lemma TitleWord(w: string)
    requires |w| > 0
    requires forall k :: 0 <= k < |w| ==> !IsSeparator(w[k])
    ensures Title(w) == [ToUpperChar(w[0])] + w[1..]
  {
    TitleAt(w);
    var r := Title(w);
    var u := [ToUpperChar(w[0])] + w[1..];
    forall k | 0 <= k < |w|
      ensures r[k] == u[k]
    {
      if k > 0 {
        assert !IsSeparator(w[k - 1]);
        assert u[k] == w[k];
      }
    }
  }

  /** `strings.ToLower`, ASCII rule. */
  function ToLower(s: string): (r: string)
    ensures |r| == |s|
    decreases |s|
  {
    if s == [] then [] else [ToLowerChar(s[0])] + ToLower(s[1..])
  }

  /** Each character is lower-cased on its own. */
  lemma {:induction false} ToLowerAt(s: string)
    ensures forall k :: 0 <= k < |s| ==> ToLower(s)[k] == ToLowerChar(s[k])
    decreases |s|
  {
    if s != [] {
      ToLowerAt(s[1..]);
    }
  }
}

=== FILE: typedef.dfy ===
/**
 * How the current generator (generator.go) reads a raw type token such as
 * `os:*os.File` or `chan float64`: an optional package before the first
 * `:`, a type text that may name a channel, and a derived exported name.
 */
module TypeParsing {
  import opened Results
  import opened Text

  /** A Go `error`, reduced to its message. */
  datatype Error = Error(message: string)

  /** A type definition: derived name, import path, element type text, and whether it is a channel. */
  datatype TypeDef = TypeDef(Name: string, Package: string, Type: string, IsChan: bool)

  /**
   * `parseRawType`'s split of a token at `:`. Without a `:` the package is
   * empty and the token is the type text; otherwise the package is what
   * precedes the first `:` and the type text is what lies between the first
   * `:` and the next one (or the end).
   */
  function Qualifier(raw: string): (r: (string, string))
    ensures ':' !in raw ==> r == ("", raw)
    ensures ':' in raw ==>
      ':' !in r.0 && ':' !in r.1 && HasPrefix(raw, r.0 + ":" + r.1) &&
      (|r.0| + 1 + |r.1| == |raw| || raw[|r.0| + 1 + |r.1|] == ':')
  {
    var parts := Split(raw, ':');
    SplitPieces(raw, ':');
    if |parts| == 1 then ("", raw)
    else
      SplitFirstTwoOf(raw, ':');
      (parts[0], parts[1])
  }

  /** The converse reading: a package, a `:`, a type text and anything from a second `:` on. */
  lemma QualifierOf(pkg: string, typ: string, rest: string)
    requires ':' !in pkg && ':' !in typ
    requires rest == [] || rest[0] == ':'
    ensures Qualifier(pkg + ":" + typ + rest) == (pkg, typ)
  {
    SplitFirstTwo(pkg, typ, rest, ':');
    assert pkg + ":" + typ + rest == pkg + [':'] + typ + rest;
  }

  /**
   * The package-level `parseType`: a type text containing `<-` is rejected
   * with the text in the message; otherwise the element type is the last
   * space-separated word and the type counts as a channel exactly when its
   * text starts with `chan`.
   */
  function ParseChanType(t: string): (r: Result<(string, bool), Error>)
    ensures r.Err? <==> exists i :: OccursAt(t, "<-", i)
    ensures r.Err? ==> r.error == Error("invalid channel type given: " + t)
    ensures r.Ok? ==> IsLastPiece(t, r.value.0, ' ')
    ensures r.Ok? ==> (r.value.1 <==> |t| >= 4 && t[..4] == "chan")
  {
    ContainsAt(t, "<-");
    if Contains(t, "<-") then Err(Error("invalid channel type given: " + t))
    else
      var parts := Split(t, ' ');
      SplitLast(t, ' ');
      Ok((parts[|parts| - 1], HasPrefix(t, "chan")))
  }

  /** `getTypeName`'s removal of at most one leading `*`. */
  function Unpointer(t: string): (u: string)
    ensures t == u || t == "*" + u
    ensures HasPrefix(t, "*") <==> t == "*" + u
  {
    if HasPrefix(t, "*") then t[1..] else t
  }

  /**
   * `getTypeName`: after dropping one leading `*`, a qualified name
   * `a.b` becomes `Title(a) + Title(b)` and anything else is title-cased
   * as it is.
   */
  function TypeName(t: string): string {
    var u := Unpointer(t);
    if Contains(u, ".") then
      ContainsChar(u, '.');
      SplitPieces(u, '.');
      var parts := Split(u, '.');
      Title(parts[0]) + Title(parts[1])
    else
      Title(u)
  }

  /** A name without a dot (and not a pointer) is only title-cased. */
  lemma TypeNameUnqualified(t: string)
    requires '.' !in t && !HasPrefix(t, "*")
    ensures TypeName(t) == Title(t)
  {
    ContainsChar(t, '.');
  }

  /**
   * A qualified name joins the title-cased package qualifier and the
   * title-cased identifier; anything after a second dot is dropped.
   */
  lemma TypeNameQualified(t: string, a: string, b: string, rest: string)
    requires t == a + "." + b + rest
    requires '.' !in a && '.' !in b && !HasPrefix(a, "*")
    requires rest == [] || rest[0] == '.'
    ensures TypeName(t) == Title(a) + Title(b)
  {
    assert t == a + ['.'] + b + rest;
    assert t[|a|] == '.';
    assert !HasPrefix(t, "*") by {
      assert |a| > 0 ==> t[0] == a[0];
    }
    assert Unpointer(t) == t;
    ContainsChar(t, '.');
    SplitFirstTwo(a, b, rest, '.');
  }

  /** One leading `*` does not change the name. */
  lemma TypeNamePointer(t: string)
    requires !HasPrefix(t, "*")
    ensures TypeName("*" + t) == TypeName(t)
  {
    assert ("*" + t)[1..] == t;
  }

  /**
   * `(*Generator).parseType`: the package and type text of the token, the
   * element type and channel flag of the type text, and the name derived
   * from the element type; a rejected type text is the error.
   */
  function ParseType(raw: string): Result<TypeDef, Error> {
    var (pkg, typ) := Qualifier(raw);
    match ParseChanType(typ)
    case Err(e) => Err(e)
    case Ok((elem, isChan)) => Ok(TypeDef(TypeName(elem), pkg, elem, isChan))
  }

  /**
   * A token is rejected exactly when its type text holds `<-`; otherwise
   * the package is the text before the `:`, the type is the last word of
   * the type text, and the name is derived from that type.
   */
  lemma ParseTypeFields(raw: string)
    ensures ParseType(raw).Err? <==> exists i :: OccursAt(Qualifier(raw).1, "<-", i)
    ensures ParseType(raw).Ok? ==>
      var t := ParseType(raw).value;
      t.Package == Qualifier(raw).0 && IsLastPiece(Qualifier(raw).1, t.Type, ' ') &&
      t.Name == TypeName(t.Type) && (t.IsChan <==> HasPrefix(Qualifier(raw).1, "chan"))
  {
  }

  /** A type text without `<` has no `<-` in it. */
  lemma NoArrow(t: string)
    requires '<' !in t
    ensures !exists i :: OccursAt(t, "<-", i)
  {
    forall i | 0 <= i && i + 2 <= |t|
      ensures !OccursAt(t, "<-", i)
    {
      assert t[i..i + 2][0] == t[i] != '<';
    }
  }

  /** An unqualified token whose type text is one word: no package. */
  lemma ParseTypeUnqualified(typ: string)
    requires ':' !in typ && ' ' !in typ && '<' !in typ
    ensures ParseType(typ) == Ok(TypeDef(TypeName(typ), "", typ, HasPrefix(typ, "chan")))
  {
    NoArrow(typ);
    SplitNoSep(typ, ' ');
  }

  /** A qualified token whose type text is one word: the package before the `:`. */
  lemma ParseTypeQualified(pkg: string, typ: string)
    requires ':' !in pkg && ':' !in typ && ' ' !in typ && '<' !in typ
    ensures ParseType(pkg + ":" + typ) == Ok(TypeDef(TypeName(typ), pkg, typ, HasPrefix(typ, "chan")))
  {
    assert pkg + ":" + typ == pkg + ":" + typ + "";
    QualifierOf(pkg, typ, "");
    NoArrow(typ);
    SplitNoSep(typ, ' ');
  }

  /** `chan T` is a channel of `T` when `T` is one word. */
  lemma ParseTypeChan(elem: string)
    requires ':' !in elem && ' ' !in elem && '<' !in elem
    ensures ParseType("chan " + elem) == Ok(TypeDef(TypeName(elem), "", elem, true))
  {
    var t := "chan" + [' '] + elem;
    assert "chan " + elem == t;
    assert ':' !in t && '<' !in t by {
      assert forall k :: 0 <= k < |t| ==> t[k] == if k < 5 then "chan "[k] else elem[k - 5];
    }
    NoArrow(t);
    SplitAfterFirst("chan", ' ', elem);
    SplitNoSep(elem, ' ');
    assert Split(t, ' ') == ["chan", elem];
    assert t[..4] == "chan";
  }

  /** Send-only and receive-only channel types are rejected, with or without a package. */
  lemma ParseTypeRejectsDirection(pkg: string, typ: string, i: nat)
    requires ':' !in pkg && ':' !in typ && OccursAt(typ, "<-", i)
    ensures ParseType(pkg + ":" + typ) == Err(Error("invalid channel type given: " + typ))
    ensures ParseType(typ) == Err(Error("invalid channel type given: " + typ))
  {
    assert pkg + ":" + typ == pkg + ":" + typ + "";
    QualifierOf(pkg, typ, "");
  }

  /** A string does not start with a prefix whose first character differs from its own. */
  lemma NotPrefixAt0(s: string, p: string)
    requires |s| > 0 && |p| > 0 && s[0] != p[0]
    ensures !HasPrefix(s, p)
  {
    if |p| <= |s| {
      assert s[..|p|][0] == s[0];
    }
  }

  /** A word of ASCII letters and digits, such as the type-parsing test uses. */
  predicate IsWord(w: string) {
    |w| > 0 && forall k :: 0 <= k < |w| ==> IsAsciiLetter(w[k]) || IsDigit(w[k])
  }

  /** A word with its first character upper-cased. */
  function Capitalized(w: string): string
    requires |w| > 0
  {
    [ToUpperChar(w[0])] + w[1..]
  }

  lemma WordNoSeparator(w: string)
    requires IsWord(w)
    ensures '.' !in w && !HasPrefix(w, "*")
    ensures forall k :: 0 <= k < |w| ==> !IsSeparator(w[k])
  {
    NotPrefixAt0(w, "*");
  }

  /** A single word, not a pointer: its name is the word capitalised. */
  lemma TypeNameWord(w: string)
    requires IsWord(w)
    ensures TypeName(w) == Capitalized(w)
  {
    WordNoSeparator(w);
    TypeNameUnqualified(w);
    TitleWord(w);
  }

  /** `a.b` for words `a` and `b`: both words capitalised and joined. */
  lemma TypeNameDottedPlain(a: string, b: string)
    requires IsWord(a) && IsWord(b)
    ensures TypeName(a + "." + b) == Capitalized(a) + Capitalized(b)
    ensures !HasPrefix(a + "." + b, "*")
  {
    WordNoSeparator(a);
    WordNoSeparator(b);
    var t := a + "." + b;
    assert t == a + "." + b + "";
    TypeNameQualified(t, a, b, "");
    TitleWord(a);
    TitleWord(b);
    assert t[0] == a[0];
    NotPrefixAt0(t, "*");
  }

  /** `a.b` and `*a.b` for words `a` and `b`: both words capitalised and joined. */
  lemma TypeNameDotted(a: string, b: string)
    requires IsWord(a) && IsWord(b)
    ensures TypeName(a + "." + b) == Capitalized(a) + Capitalized(b)
    ensures TypeName("*" + a + "." + b) == Capitalized(a) + Capitalized(b)
  {
    var t := a + "." + b;
    TypeNameDottedPlain(a, b);
    TypeNamePointer(t);
    assert "*" + a + "." + b == "*" + t;
  }

  /** The words of `os.File` in the type-parsing test, and their spellings. */
  lemma OsFileTestWords()
    ensures IsWord("os") && IsWord("File") && Capitalized("os") + Capitalized("File") == "OsFile"
    ensures "*" + "os" + "." + "File" == "*os.File"
  {
  }

  /** The words of `generator.Generator` in the type-parsing test, and their spellings. */
  lemma GeneratorTestWords()
    ensures IsWord("generator") && IsWord("Generator")
    ensures Capitalized("generator") + Capitalized("Generator") == "GeneratorGenerator"
    ensures "generator" + "." + "Generator" == "generator.Generator"
  {
  }

  /** The built-in type names of the tests, and their capitalised forms. */
  lemma PlainTestWords()
    ensures IsWord("int64") && Capitalized("int64") == "Int64"
    ensures IsWord("float64") && Capitalized("float64") == "Float64"
  {
  }

  lemma TypeNameOsFile()
    ensures TypeName("*os.File") == "OsFile"
  {
    OsFileTestWords();
    TypeNameDotted("os", "File");
  }

  lemma TypeNameGeneratorGenerator()
    ensures TypeName("generator.Generator") == "GeneratorGenerator"
  {
    GeneratorTestWords();
    TypeNameDottedPlain("generator", "Generator");
  }

  lemma TypeNameInt64()
    ensures TypeName("int64") == "Int64"
  {
    PlainTestWords();
    TypeNameWord("int64");
  }

  lemma TypeNameFloat64()
    ensures TypeName("float64") == "Float64"
  {
    PlainTestWords();
    TypeNameWord("float64");
  }

  /** `os:*os.File`: package `os`, pointer type text, name `OsFile`. */
  lemma ParseOsFile()
    ensures ParseType("os:*os.File") == Ok(TypeDef("OsFile", "os", "*os.File", false))
  {
    assert "os:*os.File" == "os" + ":" + "*os.File";
    ParseTypeQualified("os", "*os.File");
    NotPrefixAt0("*os.File", "chan");
    TypeNameOsFile();
  }

  lemma GeneratorTokenParts()
    ensures var pkg := "github.com/mvader/go-itergen/generator";
      "github.com/mvader/go-itergen/generator:generator.Generator" == pkg + ":" + "generator.Generator" &&
      ':' !in pkg
  {
  }

  /** A package path with dots and slashes before the `:`; name `GeneratorGenerator`. */
  lemma ParseGeneratorGenerator()
    ensures ParseType("github.com/mvader/go-itergen/generator:generator.Generator")
      == Ok(TypeDef("GeneratorGenerator", "github.com/mvader/go-itergen/generator", "generator.Generator", false))
  {
    GeneratorTokenParts();
    ParseTypeQualified("github.com/mvader/go-itergen/generator", "generator.Generator");
    NotPrefixAt0("generator.Generator", "chan");
    TypeNameGeneratorGenerator();
  }

  /** A built-in type: no package, name `Int64`. */
  lemma ParseInt64()
    ensures ParseType("int64") == Ok(TypeDef("Int64", "", "int64", false))
  {
    ParseTypeUnqualified("int64");
    NotPrefixAt0("int64", "chan");
    TypeNameInt64();
  }

  /** `chan float64` is a channel of `float64`. */
  lemma ParseChanFloat64()
    ensures ParseType("chan float64") == Ok(TypeDef("Float64", "", "float64", true))
  {
    assert "chan float64" == "chan " + "float64";
    ParseTypeChan("float64");
    TypeNameFloat64();
  }

  lemma SendOnlyArrow()
    ensures OccursAt("chan<- int", "<-", 4) && ':' !in "chan<- int"
    ensures "invalid channel type given: " + "chan<- int" == "invalid channel type given: chan<- int"
  {
  }

  /** A send-only channel is rejected. */
  lemma ParseSendOnly()
    ensures ParseType("chan<- int") == Err(Error("invalid channel type given: chan<- int"))
  {
    SendOnlyArrow();
    ParseTypeRejectsDirection("", "chan<- int", 4);
  }

  lemma ChannelsToken()
    ensures ':' !in "channels.Msg" && ' ' !in "channels.Msg" && '<' !in "channels.Msg"
    ensures HasPrefix("channels.Msg", "chan")
  {
    assert "channels.Msg"[..4] == "chan";
  }

  /**
   * The channel test is a bare prefix test: a named type whose qualifier
   * merely starts with `chan` counts as a channel.
   */
  lemma ParseChannelsPrefix()
    ensures ParseType("channels.Msg").Ok? && ParseType("channels.Msg").value.IsChan
  {
    ChannelsToken();
    ParseTypeUnqualified("channels.Msg");
  }
}
